=== FILE: README.md ===
# Rocket ground station and frame encoder — a Dafny model

This project models three parts of a student rocket ground station.

- **The flight controller** (`ground_station/flight_controller.py`). A state machine runs a mission:
  1. load oxidizer;
  2. load fuel;
  3. heat the oxidizer to the 55–65 bar window, or abort at 90 bar;
  4. ignite (both intakes closed, pressure 40–65 bar, then fuel main, oxidizer main, igniter);
  5. climb and detect apogee;
  6. deploy the parachute and detect landing.
- **The rocket client** (`ground_station/rocket_client.py`). It covers:
  - the device tables built from the configuration;
  - the SERVICE frames sent for servo and relay commands;
  - the telemetry store;
  - the receive loop, which routes FEED frames into telemetry and every other frame into the acknowledgement queue.
- **The Rust frame encoder** (`rust_protocol/src`). It packs a 10-byte raw frame and reverses the bit order of every byte. It then appends a CRC-32/MPEG-2 (polynomial 0x04C11DB7, initial value 0xFFFFFFFF, no reflection, no final XOR). The CRC is taken over the zero-padded data with each 32-bit word reordered, and is written little-endian.

Files:

| file | module | contents |
|---|---|---|
| `common.dfy` | `Common` | `Option`, `Result`, `Abs`, `Max`, and `First`: the first index satisfying a poll condition, the shape of every polling loop, with `IsFirst` its declarative reading |
| `telemetry.dfy` | `Telemetry` | `TelemetryStore`, `_telem` with its `float()` fallback, and the readers |
| `rocket_client.dfy` | `RocketClient` | the configuration tables, command frames, FEED routing and the receive loop |
| `flight_controller.dfy` | `FlightController` | the states, thresholds, and each mission phase |
| `flight_mission.dfy` | `FlightMission` | `full_auto_mission`, the command script every mission follows, and phase outcomes over the whole telemetry stream |
| `frame.dfy` | `ProtocolFrame` | `pack_frame_bits` and the per-byte bit reversal |
| `crc.dfy` | `Crc` | `crc32_mpeg2_with_padding` and the textbook bitwise CRC register it is proved equal to |
| `encoder.dfy` | `Encoder` | `encode_frame` and the receiving side's check |

How the model treats the controller's inputs:

- Telemetry reads come from a sequence of snapshots of the store. Each call of a reader such as `altitude()` consumes one snapshot. Any interleaving of the receive thread with the controller is therefore one such sequence.
- Every phase returns one of three outcomes:
  - `Returned`: the final controller, the commands issued in order, and the number of snapshots consumed;
  - `Pending`: the snapshots ran out while the phase was still polling;
  - `Raised`: a device-table lookup raised `KeyError`.
- Wall-clock readings are parameters.

The rest of the encoder's fields are not written into the raw frame. The source leaves packing device type, device id, data type and operation as a TODO. It writes only the masked destination, priority, action and source into bytes 1–4, and leaves byte 5 zero. The model does the same, and `ProtocolFrame.PackSeesOnlyVisible` states the consequence.

`u32::from_ne_bytes` depends on the machine's byte order, so the CRC functions take an `Endian` parameter:
- on a little-endian machine, each 4-byte chunk is reversed before the CRC;
- on a big-endian machine, the chunks are left unchanged.

## Model

| member | source | states |
|---|---|---|
| `Common.First` | ground_station/flight_controller.py:85-86 | a polling loop stops at the first reading meeting its condition: that reading meets it and no earlier one does; it never stops exactly when no reading meets it |
| `Telemetry.Update` | ground_station/rocket_client.py:27-29 | after an update the key is present and reads back the written value; every other key reads as before |
| `Telemetry.Get` | ground_station/rocket_client.py:35-37 | `get` returns the stored value of a written key, and the caller's default for a key never written |
| `Telemetry.GetAll` | ground_station/rocket_client.py:31-33 | `get_all` returns a copy holding exactly the written keys, each with the value `get` would return |
| `Telemetry.SnapshotIsIndependent` | ground_station/rocket_client.py:31-33 | a snapshot differs from the snapshot after an update exactly when the update changes the stored value |
| `Telemetry.Coerce` | ground_station/flight_controller.py:36-39 | `float()` succeeds on floats and ints, with their numeric value, and fails on `None` and on values the model calls `Opaque` |
| `Telemetry.Telem` | ground_station/flight_controller.py:34-39 | `_telem` returns the default for a missing key or an unconvertible value, and the converted value otherwise; with a float default the result is always a float |
| `Telemetry.ReadReal` | ground_station/flight_controller.py:41-51 | the level, pressure and altitude readers return the converted reading, or 0.0 when it is missing or unconvertible |
| `RocketClient.Build` | ground_station/rocket_client.py:60-75 | the three servo tables cover exactly the configured servos, with the configured id and open and closed positions; the relay and sensor tables equal the configuration |
| `RocketClient.ServoTargetPositions` | ground_station/rocket_client.py:250-260 | one entry per servo in the servo map, holding that servo's open and closed positions |
| `RocketClient.TargetsComeFromConfig` | ground_station/rocket_client.py:250-260 | for a client built from a configuration, the target positions are exactly the configured calibration points of each configured servo |
| `RocketClient.SetServoPosition` | ground_station/rocket_client.py:95-114 | an unknown servo raises `KeyError` naming it; otherwise the frame goes from SOFTWARE to ROCKET, LOW, SERVICE, SERVO with the servo's id, INT16, POSITION, payload `(position,)` |
| `RocketClient.RelayFrame` | ground_station/rocket_client.py:116-156 | an unknown relay raises `KeyError` naming it; otherwise a SERVICE frame to the relay's id with FLOAT data type, empty payload, and operation OPEN or CLOSE |
| `RocketClient.Dispatch` | ground_station/rocket_client.py:95-156 | a command fails exactly when its device name is missing from the table of its kind |
| `RocketClient.Recover` | ground_station/rocket_client.py:95-156 | every command read back from a SERVICE frame sends exactly that frame |
| `RocketClient.DispatchRoundTrip` | ground_station/rocket_client.py:95-156 | a sent frame identifies its command; when device ids are distinct per kind, it identifies exactly that command |
| `RocketClient.RelayFramesDifferOnlyInOperation` | ground_station/rocket_client.py:116-156 | the open and close frames of one relay are equal except for the operation, and neither carries a payload |
| `RocketClient.FeedKeys` | ground_station/rocket_client.py:160-207 | a key is written for a FEED frame if and only if it is a sensor whose pattern the frame matches, or `<servo>_pos` for a servo whose pattern the frame matches; so only configured feed keys are ever written |
| `RocketClient.SensorFeedUpdatesSensorKey` | ground_station/rocket_client.py:168-186 | a sensor's FEED stores `payload[0]` under the sensor name, queues nothing, and keeps the thread running; with distinct sensor ids no other key changes |
| `RocketClient.ServoFeedUpdatesPosKey` | ground_station/rocket_client.py:188-207 | a servo position FEED stores `payload[0]` under `<servo>_pos`; with distinct servo ids no other key changes |
| `RocketClient.UnmatchedFrameIsQueued` | ground_station/rocket_client.py:223-224 | a frame that matches no callback is appended to the acknowledgement queue and nothing else changes |
| `RocketClient.RxStep` | ground_station/rocket_client.py:218-228 | one receive: the thread stops exactly when a matched frame has no payload; the acknowledgement queue gains the frame exactly when it matches no pattern; a timeout changes nothing; telemetry only gains configured feed keys and other keys keep their values |
| `RocketClient.RxLoop` | ground_station/rocket_client.py:211-228 | the loop only appends to the acknowledgement queue, at most one frame per receive; telemetry keys are only added, and only configured feed keys; a stopped thread changes nothing |
| `RocketClient.RxLoopInvariant` | ground_station/rocket_client.py:211-228 | over any run without a crashing frame, the thread keeps running and the queue grows by exactly the unmatched frames, in order; telemetry only gains keys from the configured feeds, and other keys keep their values |
| `FlightController.ServoIsClosed` | ground_station/flight_controller.py:64-72 | without a numeric `<name>_pos` reading the servo is not closed; with one, a missing closed position raises `KeyError`; otherwise closed means strictly within 5 units of the closed position |
| `FlightController.ServoCmd` | ground_station/flight_controller.py:80-83 | a servo command succeeds exactly when the servo has a position in the given table and a device id, and then sends that position |
| `FlightController.RelayCmd` | ground_station/flight_controller.py:125 | a relay command succeeds exactly when the relay has a device id |
| `FlightController.Fill` | ground_station/flight_controller.py:99-117 | loading returns exactly when the intake is configured and some level reading is full; it stops at the first full reading, after opening and then closing the intake; an intake missing its open position or device id raises at once with no command, and one missing its closed position raises after the open command once a full reading arrives; while waiting, only the open command has gone out; with the open position and device id present, it raises only after some reading was full |
| `FlightController.TankOxidizer` | ground_station/flight_controller.py:76-95 | loading oxidizer reaches OX_READY exactly when a full level reading is followed by the pressure read; the trace is open then close of the oxidizer intake; it never raises on a configured intake; a missing open position or device id raises before any command, and a missing closed position raises after the open command once the tank reads full; with the open position and device id present, it raises only after some reading was full; a run still waiting with only the open command has seen no full reading, and one waiting with both commands saw its first full reading last, the close having gone out before the fill-report pressure read |
| `FlightController.TankFuel` | ground_station/flight_controller.py:99-117 | loading fuel reaches FUEL_READY exactly when some level reading is full; it stops at the first full reading, after opening and then closing the fuel intake; a missing open position or device id raises before any command, and a missing closed position raises after the open command once the tank reads full; while waiting, only the open command has gone out and no reading was full; with the open position and device id present, it raises only after some reading was full |
| `FlightController.HeatOxidizer` | ground_station/flight_controller.py:121-148 | heating returns exactly when some pressure reading is in the 55–65 bar window or at least 90 bar; it stops at the first such reading and ends ARMED exactly when that reading is in the window, ABORT otherwise; the heater is switched on and then off; a heater without a relay id raises at once with no command |
| `FlightController.RunIgnitionSequence` | ground_station/flight_controller.py:152-209 | ABORT is left untouched; a fuel intake reading open aborts after one read, an oxidizer intake reading open after two, a pressure outside 40–65 bar after three, each with no command; BOOST is reached exactly when both intakes read closed, the pressure is within 40–65 bar and the devices are configured, issuing fuel main, oxidizer main, igniter in that order; no command goes out unless all three checks passed; an intake reading without a closed calibration point raises (fuel checked first) with no command, and passing all checks with a main valve or the igniter unconfigured raises before the third command; it aborts only when one of the three checks failed |
| `FlightController.ArmingRead` | ground_station/flight_controller.py:226-233 | the arming loop stops at the first read more than 1 m above the start altitude |
| `FlightController.TrackDrop` | ground_station/flight_controller.py:235-248 | the tracking loop stops at the first read strictly below the previous one; it never stops exactly when the readings never decrease |
| `FlightController.ApogeeRead` | ground_station/flight_controller.py:226-248 | apogee is detected exactly when the climb arms and a later reading drops; the detection point satisfies both loops' stop conditions |
| `FlightController.ClimbAndDetectApogee` | ground_station/flight_controller.py:213-248 | ABORT is left untouched; otherwise the phase returns exactly when apogee is detected; it then records the reading before the drop as the apogee altitude, the clock as the apogee time, and the state APOGEE, and issues no command |
| `FlightController.ApogeeIsTrackingPeak` | ground_station/flight_controller.py:235-248 | the recorded apogee altitude is the largest reading since tracking began and exceeds the reading that ended the climb |
| `FlightController.ApogeeIsPeak` | ground_station/flight_controller.py:241-248 | the same peak property, for any readings meeting both loops' stop conditions |
| `FlightController.VerticalSpeed` | ground_station/flight_controller.py:53-62 | the speed times the sampling interval (floored at 1e-6 s) is the altitude change, so it is positive exactly when the rocket rose and negative exactly when it fell |
| `FlightController.SinceApogee` | ground_station/flight_controller.py:279 | the time since apogee is the clock reading minus the recorded apogee time; with no apogee time (or a zero one) it is 0 |
| `FlightController.PollAt` | ground_station/flight_controller.py:277-279 | deploy poll `k` uses altitude reads `3k` and `3k+1` for the speed, whose magnitude times the sampling interval is the altitude change, read `3k+2` for the altitude, and the time since apogee at that poll's clock |
| `FlightController.DeployDue` | ground_station/flight_controller.py:283-287 | a poll is due when the speed is at most 30 m/s and the altitude below 200 m, or when more than 9 s have passed since apogee |
| `FlightController.DescentAndChute` | ground_station/flight_controller.py:252-303 | ABORT is left untouched; a low apogee (under 5 m, or none) lands at once without a parachute; otherwise, with the parachute configured, a first due poll `d` followed by a first settled altitude pair `m` makes the descent return LANDED with `landed` set, having opened the parachute once and used `3(d+1) + 2(m+1)` reads; a returned descent always opened the parachute, and the apogee record is unchanged; while polling the state is DESCENT, and after the parachute command it is CHUTE_DEPLOYED; an unconfigured parachute raises once a poll is due |
| `FlightController.DeployAndLand` | ground_station/flight_controller.py:276-303 | the parachute is commanded (once) exactly when it is configured and some poll is due; with a first due poll `d` and a first settled pair `m` after it, the descent returns LANDED having used `3(d+1) + 2(m+1)` reads; an unconfigured parachute raises once a poll is due; a descent still waiting is in DESCENT before the parachute command and CHUTE_DEPLOYED after it |
| `FlightController.AwaitLanding` | ground_station/flight_controller.py:295-303 | the landing loop ends LANDED at the first altitude pair agreeing within 0.5 m, and stays pending exactly when no pair agrees |
| `FlightMission.FullAutoMission` | ground_station/flight_controller.py:307-344 | a returned mission ends in ABORT, or in LANDED with `landed` set, and never consumes more snapshots than observed |
| `FlightMission.AfterOxidizer` | ground_station/flight_controller.py:323-344 | the mission from fuel loading on ends in ABORT or LANDED |
| `FlightMission.AfterFuel` | ground_station/flight_controller.py:328-344 | the mission from heating on ends in ABORT or LANDED |
| `FlightMission.AfterHeating` | ground_station/flight_controller.py:333-344 | the mission from ignition on ends in ABORT or LANDED |
| `FlightMission.AfterIgnition` | ground_station/flight_controller.py:338-344 | ascent then descent ends in ABORT or LANDED |
| `FlightMission.MissionFollowsScript` | ground_station/flight_controller.py:307-344 | on a fully configured client the mission never raises and issues a prefix of the fixed command script; an aborted mission issued exactly the loading and heater commands; a landed one issued the whole ignition sequence and possibly the parachute |
| `FlightMission.AfterOxidizerFollowsScript` | ground_station/flight_controller.py:323-344 | the same, from fuel loading on |
| `FlightMission.AfterFuelFollowsScript` | ground_station/flight_controller.py:328-344 | the same, from heating on |
| `FlightMission.AfterHeatingFollowsScript` | ground_station/flight_controller.py:333-344 | the same, from ignition on |
| `FlightMission.AfterIgnitionFollowsScript` | ground_station/flight_controller.py:338-344 | ascent and descent issue at most the parachute command |
| `FlightMission.DescentFollowsScript` | ground_station/flight_controller.py:263-303 | a descent issues at most the parachute command and never raises on a configured client |
| `FlightMission.AbortedMissionNeverIgnites` | ground_station/flight_controller.py:328-336 | an aborted mission issued six commands, the last switching the heater off, and never fired the igniter or opened the parachute |
| `FlightMission.HeatingOutcome` | ground_station/flight_controller.py:128-147 | heating ends ARMED exactly when an in-window pressure reading comes before any reading of 90 bar or more, and ABORT exactly when it is the other way round |
| `FlightMission.DescentDeploysAtFirstDuePoll` | ground_station/flight_controller.py:276-291 | after a real apogee the parachute is commanded exactly when it is configured and some poll is slow and low enough or more than 9 s after apogee |
| `FlightMission.DescentLandsAtFirstSettledPair` | ground_station/flight_controller.py:276-303 | after a real apogee the descent returns if and only if the parachute is configured, some poll is due, and an altitude pair agreeing within 0.5 m follows the first due poll; the reads used end at the first such pair |
| `ProtocolFrame.PackFrameBits` | rust_protocol/src/frame.rs:52-86 | ten bytes: header 0x05; the low 5, 2, 4 and 5 bits of destination, priority, action and source with higher bits cleared; a zero byte 5; then the four payload bytes |
| `ProtocolFrame.MasksKeepLowBits` | rust_protocol/src/frame.rs:72-75 | the masks 0x1F, 0x03 and 0x0F keep exactly the low 5, 2 and 4 bits |
| `ProtocolFrame.UnpackPack` | rust_protocol/src/frame.rs:52-86 | the raw frame can be read back to the masked fields and payload |
| `ProtocolFrame.PackUnpack` | rust_protocol/src/frame.rs:52-86 | every well-formed raw frame is the packing of the fields read from it |
| `ProtocolFrame.PackSeesOnlyVisible` | rust_protocol/src/frame.rs:60-77 | two frames that agree on the masked first four fields and the payload pack identically: device type, device id, data type and operation do not reach the wire |
| `ProtocolFrame.ReverseBitsInByte` | rust_protocol/src/frame.rs:88-96 | bit `i` of the result is bit `7 - i` of the input |
| `ProtocolFrame.ReverseBitsInvolution` | rust_protocol/src/frame.rs:90-96 | reversing twice gives the byte back |
| `ProtocolFrame.ReverseAllBytes` | rust_protocol/src/frame.rs:98-101 | same length, and every byte reversed in place |
| `ProtocolFrame.ReverseAllBytesInvolution` | rust_protocol/src/frame.rs:99-101 | reversing all bytes twice gives the input back |
| `ProtocolFrame.ReverseAllBytesSlice` | rust_protocol/src/frame.rs:99-101 | reversal commutes with taking a slice |
| `Crc.PadToWords` | rust_protocol/src/crc.rs:20-26 | the padded length is a multiple of four, less than four bytes longer; the input is a prefix and only zeros follow |
| `Crc.PadToWordsIsShortest` | rust_protocol/src/crc.rs:20-26 | no multiple of four at least as long as the input is shorter than the padding |
| `Crc.PadToWordsIdempotent` | rust_protocol/src/crc.rs:20-26 | padded data is not padded further |
| `Crc.PaddingIsInvisibleToCrc` | rust_protocol/src/crc.rs:18-54 | padding the data beforehand does not change its checksum |
| `Crc.ChunkOrder` | rust_protocol/src/crc.rs:31-35 | a native read then a big-endian write reverses a chunk on a little-endian machine and keeps it on a big-endian one |
| `Crc.WordOrder` | rust_protocol/src/crc.rs:30-35 | the output has every whole 4-byte chunk and nothing of a trailing partial one |
| `Crc.WordOrderPlaces` | rust_protocol/src/crc.rs:31-35 | each output byte is the input byte at the same place on a big-endian machine, and at the mirrored place in its chunk on a little-endian one |
| `Crc.ShiftStepIsFeed` | rust_protocol/src/crc.rs:44-46 | one pass of the inner loop is one step of the textbook register: the polynomial is XORed in when the bit shifted out differs from the message bit |
| `Crc.ShiftIn` | rust_protocol/src/crc.rs:43-47 | the inner loop over `n` bits equals the textbook register fed with the top `n` bits of `cur` |
| `Crc.TopBitsOfByte` | rust_protocol/src/crc.rs:42-47 | a byte shifted into the top of the word feeds its own bits, most significant first |
| `Crc.ByteStep` | rust_protocol/src/crc.rs:41-48 | processing one byte equals the textbook register fed with that byte's eight bits |
| `Crc.CrcRegister` | rust_protocol/src/crc.rs:38-48 | the source's loop over a byte string equals the textbook MSB-first CRC register over the message bits |
| `Crc.LeBytesRoundTrip` | rust_protocol/src/crc.rs:53 | reading the little-endian bytes back gives the word |
| `Crc.LeWordRoundTrip` | rust_protocol/src/crc.rs:53 | writing a word read from four bytes gives the bytes back |
| `Crc.Crc32Mpeg2WithPadding` | rust_protocol/src/crc.rs:18-54 | four bytes holding, little-endian, the textbook CRC register started at 0xFFFFFFFF over the padded, word-reordered data |
| `Crc.CrcOfNothing` | rust_protocol/src/crc.rs:18-54 | the CRC of no data is the initial register, FF FF FF FF |
| `Crc.CheckValue` | rust_protocol/src/crc.rs:1-8 | the register over "123456789" is 0x0376E6E7, the standard check value of CRC-32/MPEG-2 |
| `Encoder.EncodeFrame` | rust_protocol/src/lib.rs:16-27 | 14 bytes: header byte A0 (0x05 reversed), zero byte 5, and payload bytes that un-reverse to the payload; the last four bytes are, little-endian, the CRC register over the first ten bytes plus two zero bytes, word-reordered |
| `Encoder.ReversedRawFrame` | rust_protocol/src/lib.rs:17-19 | the reversed raw frame starts with A0, keeps byte 5 zero, and carries the reversed payload |
| `Encoder.DecodeEncode` | rust_protocol/src/lib.rs:16-27 | a receiver checking length, CRC and raw layout reads back exactly the masked fields and the payload of the encoded frame |
| `Encoder.EncodeDecode` | rust_protocol/src/lib.rs:16-27 | every frame such a receiver accepts is the encoding of what it reads |
| `Encoder.MismatchedCrcIsRejected` | rust_protocol/src/lib.rs:21-26 | 14 bytes whose last four are not the CRC of the first ten are rejected |
| `Encoder.SampleFrame` | rust_protocol/tests/encode_demo.rs:18-38 | the demonstration frame encodes to 14 bytes starting A0 40 80 80 80 00 00 00 00 00 |

## Left out

- Sleeping, printing and logging are left out; they have no effect on state.
- Wall-clock readings are parameters:
  - `now` is the apogee time;
  - one `Clock` per deploy poll.
- `apogee_time or time.time()` is modelled as zero elapsed time. The second clock reading is taken right after the first, so the two are almost equal.
- The transport (`CommunicationManager`: TCP connect, push, send, receive) is not modelled:
  - a sent frame is a function result;
  - received frames are an input sequence.
- Pattern matching inside the communication library is not part of this model. It is modelled as equality of device type, device id and operation.
- YAML loading is not modelled. The configuration is given as a value. Missing `devices`, `device_id`, `open_pos` or `closed_pos` keys in the file would raise during loading; this is not modelled.
- Threads and the store's lock are not modelled. Each controller read observes one complete store snapshot, and any interleaving is a sequence of snapshots.
- The RX loop's stop flag, `stop()` and `KeyboardInterrupt` are not modelled. `RocketClient.RxLoop` runs over a finite sequence of receive results.
- The Python loops poll forever. Their unbounded waiting is modelled as the `Pending` outcome when the snapshots run out.
- Python floats are modelled as mathematical reals, with no NaN, infinity or rounding. A string or a bool in the telemetry is treated as unconvertible (`Opaque`), although Python's `float()` accepts numeric strings and bools, because feed payloads are numbers.
- `ground_station/launch_sequencer.py` is not part of this model.
- The COAST state is declared, but no phase enters it.
- The bitstruct packing of all eight fields is not implemented by the source (it is a TODO). The model follows the code as written.
- RocketClient.ServoTargetPositions: requires every servo to have open and closed positions, instead of modelling the `KeyError`. `RocketClient.Build` always produces such tables, as `RocketClient.TargetsComeFromConfig` shows.
- Encoder.SampleFrame: states the ten data bytes and the length, but not the CRC bytes, which depend on the machine's byte order.

=== FILE: common.dfy ===
/** Option and Result, the two failure-carrying wrappers the rest of the model uses. */
module Common {

  /** An optional value: Python's `None` or a present value. */
  datatype Option<+T> = None | Some(value: T) {

    /** The wrapped value, or `default` when there is none (Python's `x or default` on a present/absent value). */
    function GetOr(default: T): T {
      match this
      case Some(v) => v
      case None => default
    }
  }

  /** Either a computed value or the error that a Python `KeyError` would have carried. */
  datatype Result<+T, +E> = Success(value: T) | Failure(error: E)

  /** Absolute value of a real, Python's `abs` on a float. */
  function Abs(x: real): (r: real)
    ensures r >= 0.0
    ensures r == x || r == -x
  {
    if x < 0.0 then -x else x
  }

  /** Python's two-argument `max` on floats (returns the first argument on a tie). */
  function Max(a: real, b: real): (r: real)
    ensures r >= a && r >= b
    ensures r == a || r == b
  {
    if a >= b then a else b
  }

  /** The first index of `xs` at which `p` holds, if any: a polling loop that stops at the first reading that satisfies its exit condition. */
  function First<T>(xs: seq<T>, p: T -> bool): (r: Option<nat>)
    ensures r.Some? ==> r.value < |xs| && p(xs[r.value])
    ensures r.Some? ==> forall j :: 0 <= j < r.value ==> !p(xs[j])
    ensures r.None? <==> forall j :: 0 <= j < |xs| ==> !p(xs[j])
  {
    if |xs| == 0 then None
    else if p(xs[0]) then Some(0)
    else
      match First(xs[1..], p)
      case None => None
      case Some(k) => Some(k + 1)
  }

  /** `i` is the first index of `xs` at which `p` holds. */
  predicate IsFirst<T>(xs: seq<T>, p: T -> bool, i: nat) {
    i < |xs| && p(xs[i]) && forall j :: 0 <= j < i ==> !p(xs[j])
  }

  /** `First` finds exactly the first index at which the condition holds. */
  lemma FirstFindsIsFirst<T>(xs: seq<T>, p: T -> bool)
    ensures forall i: nat :: First(xs, p) == Some(i) <==> IsFirst(xs, p, i)
  {
  }
}

=== FILE: crc.dfy ===
/**
 * `crc32_mpeg2_with_padding`: zero padding to whole 32-bit words, the
 * native-endian to big-endian word reordering, the bitwise CRC-32/MPEG-2
 * register (polynomial 0x04C11DB7, initial value 0xFFFFFFFF, no
 * reflection, no final XOR) and the little-endian output.
 */
module Crc {
  import opened ProtocolFrame

  const Poly: bv32 := 0x04C1_1DB7
  const Init: bv32 := 0xFFFF_FFFF
  const TopBit: bv32 := 0x8000_0000

  /** `n` zero bytes. */
  function Zeros(n: nat): (z: seq<bv8>)
    ensures |z| == n && forall i :: 0 <= i < n ==> z[i] == 0
  {
    seq(n, i => 0)
  }

  /** The input followed by the fewest zero bytes that make its length a multiple of four. */
  function PadToWords(data: seq<bv8>): (p: seq<bv8>)
    ensures |p| % 4 == 0 && |data| <= |p| < |data| + 4
    ensures p[..|data|] == data && forall i :: |data| <= i < |p| ==> p[i] == 0
  {
    var rem := |data| % 4;
    if rem != 0 then data + Zeros(4 - rem) else data
  }

  /** No shorter padding would do: every multiple of four at least as long as the input is at least as long as the padding. */
  lemma PadToWordsIsShortest(data: seq<bv8>, n: nat)
    requires |data| <= n && n % 4 == 0
    ensures |PadToWords(data)| <= n
  {
    var q, rem, k := |data| / 4, |data| % 4, n / 4;
    assert |data| == 4 * q + rem && n == 4 * k;
    if rem != 0 {
      assert 4 * k > 4 * q;
      assert |PadToWords(data)| == 4 * q + 4;
    }
  }

  /** Padding already padded data adds nothing. */
  lemma PadToWordsIdempotent(data: seq<bv8>)
    ensures PadToWords(PadToWords(data)) == PadToWords(data)
  {
  }

  /** So the checksum of padded data is the checksum of the data itself. */
  lemma PaddingIsInvisibleToCrc(e: Endian, data: seq<bv8>)
    ensures Crc32Mpeg2WithPadding(e, PadToWords(data)) == Crc32Mpeg2WithPadding(e, data)
  {
    PadToWordsIdempotent(data);
  }

  // ---------------------------------------------------------------------
  // Word order
  // ---------------------------------------------------------------------

  /** The byte order of the machine running the encoder, which `u32::from_ne_bytes` follows. */
  datatype Endian = Little | Big

  /** The word whose bytes, least significant first, are `b0` to `b3`. */
  function WordLe(b0: bv8, b1: bv8, b2: bv8, b3: bv8): bv32 {
    (b0 as bv32) | (b1 as bv32 << 8) | (b2 as bv32 << 16) | (b3 as bv32 << 24)
  }

  /** `u32::from_ne_bytes` on a machine of byte order `e`. */
  function FromNeBytes(e: Endian, b: seq<bv8>): bv32
    requires |b| == 4
  {
    match e
    case Little => WordLe(b[0], b[1], b[2], b[3])
    case Big => WordLe(b[3], b[2], b[1], b[0])
  }

  /** `u32::to_be_bytes`: the most significant byte first. */
  function ToBeBytes(w: bv32): (b: seq<bv8>)
    ensures |b| == 4
  {
    [ (w >> 24) as bv8, ((w >> 16) & 0xFF) as bv8, ((w >> 8) & 0xFF) as bv8, (w & 0xFF) as bv8 ]
  }

  /** Each byte of a word can be read back by shifting and masking. */
  lemma WordBytes(b0: bv8, b1: bv8, b2: bv8, b3: bv8)
    ensures var w := WordLe(b0, b1, b2, b3);
            && (w & 0xFF) as bv8 == b0 && ((w >> 8) & 0xFF) as bv8 == b1
            && ((w >> 16) & 0xFF) as bv8 == b2 && (w >> 24) as bv8 == b3
  {
    var w := WordLe(b0, b1, b2, b3);
    assert (w & 0xFF) as bv8 == b0;
    assert ((w >> 8) & 0xFF) as bv8 == b1;
    assert ((w >> 16) & 0xFF) as bv8 == b2;
    assert (w >> 24) as bv8 == b3;
  }

  /** A chunk read natively and written big-endian is reversed on a little-endian machine and unchanged on a big-endian one. */
  lemma ChunkOrder(e: Endian, b: seq<bv8>)
    requires |b| == 4
    ensures ToBeBytes(FromNeBytes(e, b)) == if e == Little then [b[3], b[2], b[1], b[0]] else b
  {
    match e
    case Little => WordBytes(b[0], b[1], b[2], b[3]);
    case Big => WordBytes(b[3], b[2], b[1], b[0]);
  }

  /** Every whole 4-byte chunk, read as a native word and written big-endian; a trailing partial chunk is dropped. */
  function WordOrder(e: Endian, p: seq<bv8>): (r: seq<bv8>)
    ensures |r| == |p| - |p| % 4
    decreases |p|
  {
    if |p| < 4 then [] else ToBeBytes(FromNeBytes(e, p[..4])) + WordOrder(e, p[4..])
  }

  /** The position of byte `i`'s mirror image within its 4-byte chunk. */
  function Mirror(i: nat): (j: nat)
    ensures j / 4 == i / 4 && j % 4 == 3 - i % 4
  {
    i - i % 4 + 3 - i % 4
  }

  /** Where each byte of the reordered words comes from: itself on a big-endian machine, its mirror within its chunk on a little-endian one. */
  lemma {:induction false} WordOrderPlaces(e: Endian, p: seq<bv8>, i: nat)
    requires i < |p| - |p| % 4
    ensures Mirror(i) < |p|
    ensures WordOrder(e, p)[i] == if e == Little then p[Mirror(i)] else p[i]
    decreases |p|
  {
    var r := WordOrder(e, p);
    var head := ToBeBytes(FromNeBytes(e, p[..4]));
    assert r == head + WordOrder(e, p[4..]);
    ChunkOrder(e, p[..4]);
    if i >= 4 {
      assert Mirror(i - 4) == Mirror(i) - 4;
      WordOrderPlaces(e, p[4..], i - 4);
    }
  }

  // ---------------------------------------------------------------------
  // The register, as the source computes it
  // ---------------------------------------------------------------------

  /**
   * The inner loop: `n` more bits of `cur`, most significant first, shifted
   * into the register. It is the textbook register fed with those bits.
   */
  function ShiftIn(crc: bv32, cur: bv32, n: nat): (r: bv32)
    ensures r == Lfsr(crc, TopBits(cur, n))
    decreases n
  {
    if n == 0 then crc
    else
      var next := (crc << 1) ^ (if (crc ^ cur) & TopBit != 0 then Poly else 0);
      ShiftStepIsFeed(crc, cur);
      assert Lfsr(crc, TopBits(cur, n)) == Lfsr(Feed(crc, Top(cur)), TopBits(cur << 1, n - 1));
      ShiftIn(next, cur << 1, n - 1)
  }

  /**
   * One byte of the outer loop: the byte placed in the top eight bits, then
   * eight shifts; the textbook register fed with the byte's eight bits.
   */
  function ByteStep(crc: bv32, byte: bv8): (r: bv32)
    ensures r == Lfsr(crc, ByteBits(byte))
  {
    TopBitsOfByte(byte);
    ShiftIn(crc, (byte as bv32) << 24, 8)
  }

  /** The outer loop over all bytes: the textbook MSB-first register over the message bits. */
  function CrcRegister(crc: bv32, bytes: seq<bv8>): (r: bv32)
    ensures r == Lfsr(crc, MessageBits(bytes))
    decreases |bytes|
  {
    if |bytes| == 0 then crc
    else
      LfsrAppend(crc, ByteBits(bytes[0]), MessageBits(bytes[1..]));
      CrcRegister(ByteStep(crc, bytes[0]), bytes[1..])
  }

  // ---------------------------------------------------------------------
  // The register, as the textbook defines it
  // ---------------------------------------------------------------------

  /** The bits of a byte, most significant first. */
  function ByteBits(b: bv8): (bits: seq<bool>)
    ensures |bits| == 8
  {
    seq(8, k requires 0 <= k < 8 => Bit(b, 7 - k))
  }

  /** The bits of a message, byte after byte, each most significant bit first. */
  function MessageBits(bytes: seq<bv8>): (bits: seq<bool>)
    ensures |bits| == 8 * |bytes|
  {
    if |bytes| == 0 then [] else ByteBits(bytes[0]) + MessageBits(bytes[1..])
  }

  /** One shift of a non-reflected CRC register: XOR the polynomial in when the bit shifted out differs from the message bit. */
  function Feed(reg: bv32, m: bool): bv32 {
    if (reg & TopBit != 0) != m then (reg << 1) ^ Poly else reg << 1
  }

  /** The register after shifting in a stream of message bits. */
  function Lfsr(reg: bv32, bits: seq<bool>): bv32
    decreases |bits|
  {
    if |bits| == 0 then reg else Lfsr(Feed(reg, bits[0]), bits[1..])
  }

  /** Shifting in two streams one after the other is shifting in their concatenation. */
  lemma {:induction false} LfsrAppend(reg: bv32, a: seq<bool>, b: seq<bool>)
    ensures Lfsr(reg, a + b) == Lfsr(Lfsr(reg, a), b)
    decreases |a|
  {
    if |a| > 0 {
      assert (a + b)[0] == a[0] && (a + b)[1..] == a[1..] + b;
      LfsrAppend(Feed(reg, a[0]), a[1..], b);
    } else {
      assert a + b == b;
    }
  }

  /** Whether the top bit of a word is set. */
  predicate Top(x: bv32) {
    x & TopBit != 0
  }

  /** The top `n` bits of `cur`, most significant first, as the inner loop shifts them out. */
  function TopBits(cur: bv32, n: nat): (bits: seq<bool>)
    ensures |bits| == n
    decreases n
  {
    if n == 0 then [] else [Top(cur)] + TopBits(cur << 1, n - 1)
  }

  /** XOR acts on the top bit alone. */
  lemma TopOfXor(crc: bv32, cur: bv32)
    ensures Top(crc ^ cur) == (Top(crc) != Top(cur))
  {
  }

  /** One shift of the source's inner loop is one textbook shift fed with the top bit of `cur`. */
  lemma ShiftStepIsFeed(crc: bv32, cur: bv32)
    ensures (crc << 1) ^ (if (crc ^ cur) & TopBit != 0 then Poly else 0) == Feed(crc, Top(cur))
  {
    TopOfXor(crc, cur);
  }

  /** `x << k` for a shift of less than eight, with the shift amount spelled out. */
  function Shl(x: bv32, k: nat): bv32
    requires k < 8
  {
    match k
    case 0 => x case 1 => x << 1 case 2 => x << 2 case 3 => x << 3
    case 4 => x << 4 case 5 => x << 5 case 6 => x << 6 case _ => x << 7
  }

  /** Shifting left by one and then by `k - 1` is shifting by `k`. */
  lemma ShlTwice(x: bv32, k: nat)
    requires 1 <= k < 8
    ensures Shl(x << 1, k - 1) == Shl(x, k)
  {
  }

  /** The `k`-th bit `TopBits` lists is the top bit of `cur` shifted left `k` times. */
  lemma {:induction false} TopBitsAt(cur: bv32, n: nat, k: nat)
    requires k < n && k < 8
    ensures TopBits(cur, n)[k] == Top(Shl(cur, k))
    decreases k
  {
    var bits := TopBits(cur, n);
    if k > 0 {
      assert bits[k] == bits[1..][k - 1];
      assert bits[1..] == TopBits(cur << 1, n - 1);
      TopBitsAt(cur << 1, n - 1, k - 1);
      ShlTwice(cur, k);
    }
  }

  /** A byte placed in the top eight bits and shifted left `k` times shows bit `7 - k` of the byte on top. */
  lemma ByteOnTop(b: bv8, k: nat)
    requires k < 8
    ensures Top(Shl((b as bv32) << 24, k)) == Bit(b, 7 - k)
  {
  }

  /** A byte placed in the top eight bits of a word yields its own bits, most significant first. */
  lemma TopBitsOfByte(b: bv8)
    ensures TopBits((b as bv32) << 24, 8) == ByteBits(b)
  {
    var x := (b as bv32) << 24;
    forall k | 0 <= k < 8 ensures TopBits(x, 8)[k] == ByteBits(b)[k] {
      TopBitsAt(x, 8, k);
      ByteOnTop(b, k);
    }
  }

  // ---------------------------------------------------------------------
  // Output
  // ---------------------------------------------------------------------

  /** `u32::to_le_bytes`: the least significant byte first. */
  function ToLeBytes(w: bv32): (b: seq<bv8>)
    ensures |b| == 4
  {
    [ (w & 0xFF) as bv8, ((w >> 8) & 0xFF) as bv8, ((w >> 16) & 0xFF) as bv8, (w >> 24) as bv8 ]
  }

  /** Reads four bytes back as a little-endian word. */
  function FromLeBytes(b: seq<bv8>): bv32
    requires |b| == 4
  {
    WordLe(b[0], b[1], b[2], b[3])
  }

  lemma LeBytesRoundTrip(w: bv32)
    ensures FromLeBytes(ToLeBytes(w)) == w
  {
  }

  lemma LeWordRoundTrip(b: seq<bv8>)
    requires |b| == 4
    ensures ToLeBytes(FromLeBytes(b)) == b
  {
    WordBytes(b[0], b[1], b[2], b[3]);
  }

  /**
   * `crc32_mpeg2_with_padding`: the little-endian bytes of the textbook
   * CRC-32/MPEG-2 register over the zero-padded input with each word put
   * in big-endian order.
   */
  function Crc32Mpeg2WithPadding(e: Endian, data: seq<bv8>): (out: seq<bv8>)
    ensures |out| == 4
    ensures FromLeBytes(out) == Lfsr(Init, MessageBits(WordOrder(e, PadToWords(data))))
  {
    var padded := PadToWords(data);
    var beWords := WordOrder(e, padded);
    var crc := CrcRegister(Init, beWords);
    LeBytesRoundTrip(crc);
    ToLeBytes(crc)
  }

  /** With nothing to checksum the register keeps its initial value. */
  lemma CrcOfNothing(e: Endian)
    ensures Crc32Mpeg2WithPadding(e, []) == [0xFF, 0xFF, 0xFF, 0xFF]
  {
  }

  /**
   * The standard check value of CRC-32/MPEG-2: the register over the
   * ASCII digits "123456789" ends at 0x0376E6E7. The steps below follow
   * the inner loop one shift at a time.
   */
  lemma CheckValue()
    ensures CrcRegister(Init, [0x31, 0x32, 0x33, 0x34, 0x35, 0x36, 0x37, 0x38, 0x39]) == 0x0376_E6E7
  {
    assert ShiftIn(0xFFFFFFFF, 0x31000000, 8) == ShiftIn(0xFB3EE249, 0x62000000, 7);
    assert ShiftIn(0xFB3EE249, 0x62000000, 7) == ShiftIn(0xF2BCD925, 0xC4000000, 6);
    assert ShiftIn(0xF2BCD925, 0xC4000000, 6) == ShiftIn(0xE579B24A, 0x88000000, 5);
    assert ShiftIn(0xE579B24A, 0x88000000, 5) == ShiftIn(0xCAF36494, 0x10000000, 4);
    assert ShiftIn(0xCAF36494, 0x10000000, 4) == ShiftIn(0x9127D49F, 0x20000000, 3);
    assert ShiftIn(0x9127D49F, 0x20000000, 3) == ShiftIn(0x268EB489, 0x40000000, 2);
    assert ShiftIn(0x268EB489, 0x40000000, 2) == ShiftIn(0x4D1D6912, 0x80000000, 1);
    assert ShiftIn(0x4D1D6912, 0x80000000, 1) == ShiftIn(0x9EFBCF93, 0x00000000, 0);
    assert ByteStep(0xFFFFFFFF, 0x31) == 0x9EFBCF93;
    assert ShiftIn(0x9EFBCF93, 0x32000000, 8) == ShiftIn(0x39368291, 0x64000000, 7);
    assert ShiftIn(0x39368291, 0x64000000, 7) == ShiftIn(0x726D0522, 0xC8000000, 6);
    assert ShiftIn(0x726D0522, 0xC8000000, 6) == ShiftIn(0xE01B17F3, 0x90000000, 5);
    assert ShiftIn(0xE01B17F3, 0x90000000, 5) == ShiftIn(0xC0362FE6, 0x20000000, 4);
    assert ShiftIn(0xC0362FE6, 0x20000000, 4) == ShiftIn(0x84AD427B, 0x40000000, 3);
    assert ShiftIn(0x84AD427B, 0x40000000, 3) == ShiftIn(0x0D9B9941, 0x80000000, 2);
    assert ShiftIn(0x0D9B9941, 0x80000000, 2) == ShiftIn(0x1FF62F35, 0x00000000, 1);
    assert ShiftIn(0x1FF62F35, 0x00000000, 1) == ShiftIn(0x3FEC5E6A, 0x00000000, 0);
    assert ByteStep(0x9EFBCF93, 0x32) == 0x3FEC5E6A;
    assert ShiftIn(0x3FEC5E6A, 0x33000000, 8) == ShiftIn(0x7FD8BCD4, 0x66000000, 7);
    assert ShiftIn(0x7FD8BCD4, 0x66000000, 7) == ShiftIn(0xFFB179A8, 0xCC000000, 6);
    assert ShiftIn(0xFFB179A8, 0xCC000000, 6) == ShiftIn(0xFF62F350, 0x98000000, 5);
    assert ShiftIn(0xFF62F350, 0x98000000, 5) == ShiftIn(0xFEC5E6A0, 0x30000000, 4);
    assert ShiftIn(0xFEC5E6A0, 0x30000000, 4) == ShiftIn(0xF94AD0F7, 0x60000000, 3);
    assert ShiftIn(0xF94AD0F7, 0x60000000, 3) == ShiftIn(0xF654BC59, 0xC0000000, 2);
    assert ShiftIn(0xF654BC59, 0xC0000000, 2) == ShiftIn(0xECA978B2, 0x80000000, 1);
    assert ShiftIn(0xECA978B2, 0x80000000, 1) == ShiftIn(0xD952F164, 0x00000000, 0);
    assert ByteStep(0x3FEC5E6A, 0x33) == 0xD952F164;
    assert ShiftIn(0xD952F164, 0x34000000, 8) == ShiftIn(0xB664FF7F, 0x68000000, 7);
    assert ShiftIn(0xB664FF7F, 0x68000000, 7) == ShiftIn(0x6808E349, 0xD0000000, 6);
    assert ShiftIn(0x6808E349, 0xD0000000, 6) == ShiftIn(0xD4D0DB25, 0xA0000000, 5);
    assert ShiftIn(0xD4D0DB25, 0xA0000000, 5) == ShiftIn(0xA9A1B64A, 0x40000000, 4);
    assert ShiftIn(0xA9A1B64A, 0x40000000, 4) == ShiftIn(0x57827123, 0x80000000, 3);
    assert ShiftIn(0x57827123, 0x80000000, 3) == ShiftIn(0xABC5FFF1, 0x00000000, 2);
    assert ShiftIn(0xABC5FFF1, 0x00000000, 2) == ShiftIn(0x534AE255, 0x00000000, 1);
    assert ShiftIn(0x534AE255, 0x00000000, 1) == ShiftIn(0xA695C4AA, 0x00000000, 0);
    assert ByteStep(0xD952F164, 0x34) == 0xA695C4AA;
    assert ShiftIn(0xA695C4AA, 0x35000000, 8) == ShiftIn(0x49EA94E3, 0x6A000000, 7);
    assert ShiftIn(0x49EA94E3, 0x6A000000, 7) == ShiftIn(0x93D529C6, 0xD4000000, 6);
    assert ShiftIn(0x93D529C6, 0xD4000000, 6) == ShiftIn(0x27AA538C, 0xA8000000, 5);
    assert ShiftIn(0x27AA538C, 0xA8000000, 5) == ShiftIn(0x4B95BAAF, 0x50000000, 4);
    assert ShiftIn(0x4B95BAAF, 0x50000000, 4) == ShiftIn(0x972B755E, 0xA0000000, 3);
    assert ShiftIn(0x972B755E, 0xA0000000, 3) == ShiftIn(0x2E56EABC, 0x40000000, 2);
    assert ShiftIn(0x2E56EABC, 0x40000000, 2) == ShiftIn(0x5CADD578, 0x80000000, 1);
    assert ShiftIn(0x5CADD578, 0x80000000, 1) == ShiftIn(0xBD9AB747, 0x00000000, 0);
    assert ByteStep(0xA695C4AA, 0x35) == 0xBD9AB747;
    assert ShiftIn(0xBD9AB747, 0x36000000, 8) == ShiftIn(0x7FF47339, 0x6C000000, 7);
    assert ShiftIn(0x7FF47339, 0x6C000000, 7) == ShiftIn(0xFFE8E672, 0xD8000000, 6);
    assert ShiftIn(0xFFE8E672, 0xD8000000, 6) == ShiftIn(0xFFD1CCE4, 0xB0000000, 5);
    assert ShiftIn(0xFFD1CCE4, 0xB0000000, 5) == ShiftIn(0xFFA399C8, 0x60000000, 4);
    assert ShiftIn(0xFFA399C8, 0x60000000, 4) == ShiftIn(0xFB862E27, 0xC0000000, 3);
    assert ShiftIn(0xFB862E27, 0xC0000000, 3) == ShiftIn(0xF70C5C4E, 0x80000000, 2);
    assert ShiftIn(0xF70C5C4E, 0x80000000, 2) == ShiftIn(0xEE18B89C, 0x00000000, 1);
    assert ShiftIn(0xEE18B89C, 0x00000000, 1) == ShiftIn(0xD8F06C8F, 0x00000000, 0);
    assert ByteStep(0xBD9AB747, 0x36) == 0xD8F06C8F;
    assert ShiftIn(0xD8F06C8F, 0x37000000, 8) == ShiftIn(0xB521C4A9, 0x6E000000, 7);
    assert ShiftIn(0xB521C4A9, 0x6E000000, 7) == ShiftIn(0x6E8294E5, 0xDC000000, 6);
    assert ShiftIn(0x6E8294E5, 0xDC000000, 6) == ShiftIn(0xD9C4347D, 0xB8000000, 5);
    assert ShiftIn(0xD9C4347D, 0xB8000000, 5) == ShiftIn(0xB38868FA, 0x70000000, 4);
    assert ShiftIn(0xB38868FA, 0x70000000, 4) == ShiftIn(0x63D1CC43, 0xE0000000, 3);
    assert ShiftIn(0x63D1CC43, 0xE0000000, 3) == ShiftIn(0xC3628531, 0xC0000000, 2);
    assert ShiftIn(0xC3628531, 0xC0000000, 2) == ShiftIn(0x86C50A62, 0x80000000, 1);
    assert ShiftIn(0x86C50A62, 0x80000000, 1) == ShiftIn(0x0D8A14C4, 0x00000000, 0);
    assert ByteStep(0xD8F06C8F, 0x37) == 0x0D8A14C4;
    assert ShiftIn(0x0D8A14C4, 0x38000000, 8) == ShiftIn(0x1B142988, 0x70000000, 7);
    assert ShiftIn(0x1B142988, 0x70000000, 7) == ShiftIn(0x36285310, 0xE0000000, 6);
    assert ShiftIn(0x36285310, 0xE0000000, 6) == ShiftIn(0x6891BB97, 0xC0000000, 5);
    assert ShiftIn(0x6891BB97, 0xC0000000, 5) == ShiftIn(0xD5E26A99, 0x80000000, 4);
    assert ShiftIn(0xD5E26A99, 0x80000000, 4) == ShiftIn(0xABC4D532, 0x00000000, 3);
    assert ShiftIn(0xABC4D532, 0x00000000, 3) == ShiftIn(0x5348B7D3, 0x00000000, 2);
    assert ShiftIn(0x5348B7D3, 0x00000000, 2) == ShiftIn(0xA6916FA6, 0x00000000, 1);
    assert ShiftIn(0xA6916FA6, 0x00000000, 1) == ShiftIn(0x49E3C2FB, 0x00000000, 0);
    assert ByteStep(0x0D8A14C4, 0x38) == 0x49E3C2FB;
    assert ShiftIn(0x49E3C2FB, 0x39000000, 8) == ShiftIn(0x93C785F6, 0x72000000, 7);
    assert ShiftIn(0x93C785F6, 0x72000000, 7) == ShiftIn(0x234E165B, 0xE4000000, 6);
    assert ShiftIn(0x234E165B, 0xE4000000, 6) == ShiftIn(0x425D3101, 0xC8000000, 5);
    assert ShiftIn(0x425D3101, 0xC8000000, 5) == ShiftIn(0x807B7FB5, 0x90000000, 4);
    assert ShiftIn(0x807B7FB5, 0x90000000, 4) == ShiftIn(0x00F6FF6A, 0x20000000, 3);
    assert ShiftIn(0x00F6FF6A, 0x20000000, 3) == ShiftIn(0x01EDFED4, 0x40000000, 2);
    assert ShiftIn(0x01EDFED4, 0x40000000, 2) == ShiftIn(0x03DBFDA8, 0x80000000, 1);
    assert ShiftIn(0x03DBFDA8, 0x80000000, 1) == ShiftIn(0x0376E6E7, 0x00000000, 0);
    assert ByteStep(0x49E3C2FB, 0x39) == 0x0376E6E7;
  }
}

=== FILE: encoder.dfy ===
/**
 * `encode_frame`: the raw ten bytes with every byte bit-reversed, followed
 * by the four CRC bytes computed over the reversed bytes. `DecodeFrame` is
 * the receiving side's reading of such a frame.
 */
module Encoder {
  import opened Common
  import opened ProtocolFrame
  import opened Crc

  /** The bit-reversed header byte 0x05. */
  const WireHeader: bv8 := 0xA0

  /**
   * `encode_frame`: 14 bytes; the first ten are the packed frame with each
   * byte's bits reversed, the last four the CRC register over those ten
   * bytes and two zero padding bytes, with each word in big-endian order,
   * least significant byte first.
   */
  function EncodeFrame(e: Endian, f: FrameFields): (out: seq<bv8>)
    ensures |out| == 14
    ensures out[0] == WireHeader && out[5] == 0
    ensures ReverseAllBytes(out[6..10]) == f.payload
    ensures FromLeBytes(out[10..]) == Lfsr(Init, MessageBits(WordOrder(e, out[..10] + [0, 0])))
  {
    var raw10 := PackFrameBits(f);
    var reversed := ReverseAllBytes(raw10);
    var crcLe := Crc32Mpeg2WithPadding(e, reversed);
    ReversedRawFrame(f);
    PadTenBytes(reversed);
    assert (reversed + crcLe)[..10] == reversed && (reversed + crcLe)[10..] == crcLe;
    reversed + crcLe
  }

  /** The bit-reversed raw frame starts with the reversed header, keeps byte 5 zero, and un-reverses to the payload in bytes 6-9. */
  lemma ReversedRawFrame(f: FrameFields)
    ensures var reversed := ReverseAllBytes(PackFrameBits(f));
            reversed[0] == WireHeader && reversed[5] == 0 && ReverseAllBytes(reversed[6..10]) == f.payload
  {
    var raw10 := PackFrameBits(f);
    assert ReverseBitsInByte(HeaderId) == WireHeader;
    assert ReverseBitsInByte(0) == 0;
    ReverseAllBytesSlice(raw10, 6, 10);
    ReverseAllBytesInvolution(raw10[6..10]);
  }

  /** Ten bytes are padded with exactly two zero bytes. */
  lemma PadTenBytes(bytes: seq<bv8>)
    requires |bytes| == 10
    ensures PadToWords(bytes) == bytes + [0, 0]
  {
    assert Zeros(2) == [0, 0];
  }

  /**
   * The receiving side: a 14-byte frame whose trailing CRC matches its first
   * ten bytes and whose un-reversed bytes form a valid raw frame yields the
   * frame's visible fields; anything else is rejected.
   */
  function DecodeFrame(e: Endian, bytes: seq<bv8>): (r: Option<FrameFields>)
    ensures r.Some? ==> |bytes| == 14 && bytes[10..] == Crc32Mpeg2WithPadding(e, bytes[..10])
    ensures r.Some? ==> r == UnpackFrameBits(ReverseAllBytes(bytes[..10]))
  {
    if |bytes| == 14 && bytes[10..] == Crc32Mpeg2WithPadding(e, bytes[..10])
    then UnpackFrameBits(ReverseAllBytes(bytes[..10]))
    else None
  }

  /** Decoding an encoded frame gives back its visible part: what the wire cannot carry is lost, nothing else. */
  lemma DecodeEncode(e: Endian, f: FrameFields)
    ensures DecodeFrame(e, EncodeFrame(e, f)) == Some(Visible(f))
  {
    var out := EncodeFrame(e, f);
    var raw10 := PackFrameBits(f);
    assert out[..10] == ReverseAllBytes(raw10);
    ReverseAllBytesInvolution(raw10);
    UnpackPack(f);
  }

  /** Every accepted frame is the encoding of the frame it decodes to. */
  lemma EncodeDecode(e: Endian, bytes: seq<bv8>)
    requires DecodeFrame(e, bytes).Some?
    ensures EncodeFrame(e, DecodeFrame(e, bytes).value) == bytes
  {
    var raw := ReverseAllBytes(bytes[..10]);
    var g := DecodeFrame(e, bytes).value;
    PackUnpack(raw);
    ReverseAllBytesInvolution(bytes[..10]);
    assert bytes == bytes[..10] + bytes[10..];
  }

  /** A 14-byte frame whose trailing four bytes are not the CRC of its first ten is rejected. */
  lemma MismatchedCrcIsRejected(e: Endian, bytes: seq<bv8>)
    requires |bytes| == 14 && bytes[10..] != Crc32Mpeg2WithPadding(e, bytes[..10])
    ensures DecodeFrame(e, bytes) == None
  {
  }

  /**
   * The sample frame of the encoder's demonstration: a SERVICE command from
   * SOFTWARE to the ROCKET setting servo 2 to position 0. Its wire bytes
   * start A0 40 80 80 80 00, and the payload bytes stay zero.
   */
  lemma SampleFrame(e: Endian)
    ensures var f := FrameFields(0x02, 0x01, 0x01, 0x01, 0x00, 0x02, 0x05, 0x05, [0, 0, 0, 0]);
            var out := EncodeFrame(e, f);
            |out| == 14 && out[..10] == [0xA0, 0x40, 0x80, 0x80, 0x80, 0x00, 0x00, 0x00, 0x00, 0x00]
  {
    var f := FrameFields(0x02, 0x01, 0x01, 0x01, 0x00, 0x02, 0x05, 0x05, [0, 0, 0, 0]);
    var raw10 := PackFrameBits(f);
    assert raw10 == [0x05, 0x02, 0x01, 0x01, 0x01, 0x00, 0x00, 0x00, 0x00, 0x00];
    assert ReverseBitsInByte(0x05) == 0xA0 && ReverseBitsInByte(0x02) == 0x40;
    assert ReverseBitsInByte(0x01) == 0x80 && ReverseBitsInByte(0x00) == 0x00;
    var reversed := ReverseAllBytes(raw10);
    assert reversed == [0xA0, 0x40, 0x80, 0x80, 0x80, 0x00, 0x00, 0x00, 0x00, 0x00];
    assert EncodeFrame(e, f) == reversed + Crc32Mpeg2WithPadding(e, reversed);
  }
}

=== FILE: flight_controller.dfy ===
/**
 * The flight-sequencing state machine `FlightController`. Each phase is a
 * pure function of the controller, the client's device tables, and the
 * stream of telemetry snapshots its reads observe (every call of a reader
 * such as `altitude()` consumes one snapshot). A phase returns the final
 * controller, the actuator commands it issued in order, and how many
 * snapshots it consumed; if the stream runs out while it still polls the
 * result is `Pending`, and a device-table lookup that raises `KeyError`
 * is `Raised`.
 */
module FlightController {
  import opened Common
  import opened Telemetry
  import opened RocketClient

  /** The controller's state; `Coast` is declared by the source but no phase enters it. */
  datatype FlightState =
    | Idle | TankingOx | OxReady | TankingFuel | FuelReady | Heating | Armed
    | IgnitionSequence | Boost | Ascent | Coast | Apogee | Descent
    | ChuteDeployed | Landed | Abort

  /** The controller's fields: state and the mission facts recorded at apogee and landing. */
  datatype Controller = Controller(state: FlightState, apogeeAlt: Option<real>, apogeeTime: Option<real>, landed: bool)

  /** How a phase ended: it returned, it still polls when the snapshots run out, or a lookup raised `KeyError`. */
  datatype Run =
    | Returned(ctl: Controller, trace: seq<Command>, used: nat)
    | Pending(ctl: Controller, trace: seq<Command>)
    | Raised(ctl: Controller, trace: seq<Command>, missing: string)

  // Device names and telemetry keys used by the phases
  const FuelIntake := "fuel_intake"
  const OxIntake := "oxidizer_intake"
  const FuelMain := "fuel_main"
  const OxMain := "oxidizer_main"
  const Heater := "oxidizer_heater"
  const Igniter := "igniter"
  const Parachute := "parachute"
  const FuelLevel := "fuel_level"
  const OxLevel := "oxidizer_level"
  const OxPressure := "oxidizer_pressure"
  const Altitude := "altitude"

  // ---------------------------------------------------------------------
  // Thresholds
  // ---------------------------------------------------------------------

  /** A tank counts as full at 100 percent, inclusive. */
  predicate Full(level: real) { level >= 100.0 }

  /** The heating target window, 55 to 65 bar inclusive. */
  predicate HeatWindow(p: real) { 55.0 <= p <= 65.0 }

  /** Tank overpressure, 90 bar or more. */
  predicate Overpressure(p: real) { p >= 90.0 }

  /** The heating loop stops on the window or on overpressure. */
  predicate HeatStop(p: real) { HeatWindow(p) || Overpressure(p) }

  /** Ignition is allowed for pressures of 40 to 65 bar inclusive. */
  predicate IgnitionWindow(p: real) { 40.0 <= p <= 65.0 }

  /** The apogee-detection minimum rise above the start altitude, 1 m (strict). */
  predicate Climbing(start: real, alt: real) { alt - start > 1.0 }

  /** A recorded apogee below 5 m counts as a low hop that has already landed. */
  predicate LowApogee(c: Controller) { c.apogeeAlt.GetOr(0.0) < 5.0 }

  // ---------------------------------------------------------------------
  // Sensors
  // ---------------------------------------------------------------------

  /** The numeric position reported for a servo, if `<name>_pos` holds one. */
  function PosReading(t: Store, name: string): Option<real> {
    if PosKey(name) in t then Coerce(t[PosKey(name)]) else None
  }

  /**
   * `servo_is_closed(name)`: false without a numeric position reading;
   * otherwise the closed calibration point is looked up (`KeyError` if the
   * servo has none) and the reading must lie strictly within 5 units of it.
   */
  function ServoIsClosed(cl: Client, t: Store, name: string): (r: Result<bool, string>)
    ensures PosReading(t, name).None? ==> r == Success(false)
    ensures r.Failure? <==> PosReading(t, name).Some? && name !in cl.servoClosedPos
    ensures r == Success(true) <==>
              && PosReading(t, name).Some? && name in cl.servoClosedPos
              && Abs(PosReading(t, name).value - cl.servoClosedPos[name] as real) < 5.0
  {
    match Telem(t, PosKey(name), None)
    case None => Success(false)
    case Some(pos) =>
      if name !in cl.servoClosedPos then Failure(name)
      else Success(Abs(pos - cl.servoClosedPos[name] as real) < 5.0)
  }

  // ---------------------------------------------------------------------
  // Issuing commands
  // ---------------------------------------------------------------------

  /** The servo is known to every servo table. */
  predicate ServoReady(cl: Client, name: string) {
    name in cl.servoMap && name in cl.servoOpenPos && name in cl.servoClosedPos
  }

  /** `set_servo_position(name, positions[name])`: the position lookup, then the client's device lookup. */
  function ServoCmd(cl: Client, name: string, positions: map<string, int>): (r: Result<Command, string>)
    ensures r.Success? <==> name in positions && name in cl.servoMap
    ensures r.Success? ==> r.value == SetServo(name, positions[name]) && Dispatch(cl, r.value).Success?
    ensures r.Failure? ==> r.error == name
  {
    if name !in positions then Failure(name)
    else
      var cmd := SetServo(name, positions[name]);
      if Dispatch(cl, cmd).Failure? then Failure(name) else Success(cmd)
  }

  /** `relay_open(name)` (`open`) or `relay_close(name)`: the client's device lookup. */
  function RelayCmd(cl: Client, name: string, open: bool): (r: Result<Command, string>)
    ensures r.Success? <==> name in cl.relayMap
    ensures r.Success? ==> r.value == (if open then RelayOpen(name) else RelayClose(name)) && Dispatch(cl, r.value).Success?
    ensures r.Failure? ==> r.error == name
  {
    var cmd := if open then RelayOpen(name) else RelayClose(name);
    if Dispatch(cl, cmd).Failure? then Failure(name) else Success(cmd)
  }

  // ---------------------------------------------------------------------
  // Propellant loading
  // ---------------------------------------------------------------------

  /**
   * The loading pattern shared by both tanks: open the intake, poll the
   * level until it reads full, close the intake. The state stays `tanking`.
   */
  function Fill(c: Controller, cl: Client, intake: string, levelKey: string, tanking: FlightState, obs: seq<Store>): (r: Run)
    ensures r.ctl == c.(state := tanking)
    ensures r.Returned? <==> ServoReady(cl, intake) && exists i :: 0 <= i < |obs| && Full(ReadReal(obs[i], levelKey))
    ensures r.Returned? ==>
              && 0 < r.used <= |obs|
              && Full(ReadReal(obs[r.used - 1], levelKey))
              && (forall j :: 0 <= j < r.used - 1 ==> !Full(ReadReal(obs[j], levelKey)))
              && r.trace == [SetServo(intake, cl.servoOpenPos[intake]), SetServo(intake, cl.servoClosedPos[intake])]
    ensures r.Pending? ==>
              && (forall j :: 0 <= j < |obs| ==> !Full(ReadReal(obs[j], levelKey)))
              && intake in cl.servoOpenPos
              && r.trace == [SetServo(intake, cl.servoOpenPos[intake])]
    ensures r.Raised? ==> r.missing == intake && !ServoReady(cl, intake)
    ensures r.Raised? ==> r.trace == [] || (intake in cl.servoOpenPos && r.trace == [SetServo(intake, cl.servoOpenPos[intake])])
    ensures intake !in cl.servoOpenPos || intake !in cl.servoMap ==> r == Raised(c.(state := tanking), [], intake)
    ensures && intake in cl.servoOpenPos && intake in cl.servoMap && intake !in cl.servoClosedPos
            && (exists i :: 0 <= i < |obs| && Full(ReadReal(obs[i], levelKey))) ==>
              r == Raised(c.(state := tanking), [SetServo(intake, cl.servoOpenPos[intake])], intake)
    ensures r.Raised? && intake in cl.servoOpenPos && intake in cl.servoMap ==>
              exists i :: 0 <= i < |obs| && Full(ReadReal(obs[i], levelKey))
  {
    var c1 := c.(state := tanking);
    match ServoCmd(cl, intake, cl.servoOpenPos)
    case Failure(k) => Raised(c1, [], k)
    case Success(open) =>
      var levels := Readings(obs, levelKey);
      match First(levels, Full)
      case None => Pending(c1, [open])
      case Some(n) =>
        match ServoCmd(cl, intake, cl.servoClosedPos)
        case Failure(k) => Raised(c1, [open], k)
        case Success(close) => Returned(c1, [open, close], n + 1)
  }

  /** `tank_oxidizer`: fill the oxidizer tank, then read the pressure once for the fill report, then `OxReady`. */
  function TankOxidizer(c: Controller, cl: Client, obs: seq<Store>): (r: Run)
    ensures r.ctl == c.(state := if r.Returned? then OxReady else TankingOx)
    ensures r.Returned? <==>
              ServoReady(cl, OxIntake) && exists i :: 0 <= i < |obs| - 1 && Full(ReadReal(obs[i], OxLevel))
    ensures r.Returned? ==>
              && 2 <= r.used <= |obs|
              && Full(ReadReal(obs[r.used - 2], OxLevel))
              && (forall j :: 0 <= j < r.used - 2 ==> !Full(ReadReal(obs[j], OxLevel)))
              && r.trace == [SetServo(OxIntake, cl.servoOpenPos[OxIntake]), SetServo(OxIntake, cl.servoClosedPos[OxIntake])]
    ensures r.Pending? ==>
              && OxIntake in cl.servoOpenPos
              && (|r.trace| == 1 || (|r.trace| == 2 && OxIntake in cl.servoClosedPos))
              && r.trace[0] == SetServo(OxIntake, cl.servoOpenPos[OxIntake])
              && (|r.trace| == 2 ==> r.trace[1] == SetServo(OxIntake, cl.servoClosedPos[OxIntake]))
    ensures ServoReady(cl, OxIntake) ==> !r.Raised?
    ensures OxIntake !in cl.servoOpenPos || OxIntake !in cl.servoMap ==> r == Raised(c.(state := TankingOx), [], OxIntake)
    ensures && OxIntake in cl.servoOpenPos && OxIntake in cl.servoMap && OxIntake !in cl.servoClosedPos
            && (exists i :: 0 <= i < |obs| && Full(ReadReal(obs[i], OxLevel))) ==>
              r == Raised(c.(state := TankingOx), [SetServo(OxIntake, cl.servoOpenPos[OxIntake])], OxIntake)
    ensures r.Raised? && OxIntake in cl.servoOpenPos && OxIntake in cl.servoMap ==>
              exists i :: 0 <= i < |obs| && Full(ReadReal(obs[i], OxLevel))
    ensures r.Pending? && |r.trace| == 1 ==> forall j :: 0 <= j < |obs| ==> !Full(ReadReal(obs[j], OxLevel))
    ensures r.Pending? && |r.trace| == 2 ==>
              && |obs| > 0 && Full(ReadReal(obs[|obs| - 1], OxLevel))
              && forall j :: 0 <= j < |obs| - 1 ==> !Full(ReadReal(obs[j], OxLevel))
  {
    var f := Fill(c, cl, OxIntake, OxLevel, TankingOx, obs);
    if !f.Returned? then f
    else if f.used >= |obs| then Pending(f.ctl, f.trace)
    else Returned(f.ctl.(state := OxReady), f.trace, f.used + 1)
  }

  /** `tank_fuel`: fill the fuel tank, then `FuelReady`. */
  function TankFuel(c: Controller, cl: Client, obs: seq<Store>): (r: Run)
    ensures r.ctl == c.(state := if r.Returned? then FuelReady else TankingFuel)
    ensures r.Returned? <==>
              ServoReady(cl, FuelIntake) && exists i :: 0 <= i < |obs| && Full(ReadReal(obs[i], FuelLevel))
    ensures r.Returned? ==>
              && 1 <= r.used <= |obs|
              && Full(ReadReal(obs[r.used - 1], FuelLevel))
              && (forall j :: 0 <= j < r.used - 1 ==> !Full(ReadReal(obs[j], FuelLevel)))
              && r.trace == [SetServo(FuelIntake, cl.servoOpenPos[FuelIntake]), SetServo(FuelIntake, cl.servoClosedPos[FuelIntake])]
    ensures r.Pending? ==>
              && (forall j :: 0 <= j < |obs| ==> !Full(ReadReal(obs[j], FuelLevel)))
              && FuelIntake in cl.servoOpenPos
              && r.trace == [SetServo(FuelIntake, cl.servoOpenPos[FuelIntake])]
    ensures ServoReady(cl, FuelIntake) ==> !r.Raised?
    ensures FuelIntake !in cl.servoOpenPos || FuelIntake !in cl.servoMap ==> r == Raised(c.(state := TankingFuel), [], FuelIntake)
    ensures && FuelIntake in cl.servoOpenPos && FuelIntake in cl.servoMap && FuelIntake !in cl.servoClosedPos
            && (exists i :: 0 <= i < |obs| && Full(ReadReal(obs[i], FuelLevel))) ==>
              r == Raised(c.(state := TankingFuel), [SetServo(FuelIntake, cl.servoOpenPos[FuelIntake])], FuelIntake)
    ensures r.Raised? && FuelIntake in cl.servoOpenPos && FuelIntake in cl.servoMap ==>
              exists i :: 0 <= i < |obs| && Full(ReadReal(obs[i], FuelLevel))
  {
    var f := Fill(c, cl, FuelIntake, FuelLevel, TankingFuel, obs);
    if f.Returned? then Returned(f.ctl.(state := FuelReady), f.trace, f.used) else f
  }

  // ---------------------------------------------------------------------
  // Oxidizer heating
  // ---------------------------------------------------------------------

  /**
   * `heat_oxidizer`: switch the heater on, poll pressure until it is in the
   * window (ARMED) or at overpressure (ABORT), and switch the heater off on
   * either exit.
   */
  function HeatOxidizer(c: Controller, cl: Client, obs: seq<Store>): (r: Run)
    ensures r.ctl == c.(state := r.ctl.state)
    ensures r.Returned? <==>
              Heater in cl.relayMap && exists i :: 0 <= i < |obs| && HeatStop(ReadReal(obs[i], OxPressure))
    ensures r.Returned? ==>
              && 0 < r.used <= |obs|
              && HeatStop(ReadReal(obs[r.used - 1], OxPressure))
              && (forall j :: 0 <= j < r.used - 1 ==> !HeatStop(ReadReal(obs[j], OxPressure)))
              && (r.ctl.state == Armed <==> HeatWindow(ReadReal(obs[r.used - 1], OxPressure)))
              && (r.ctl.state == Armed || r.ctl.state == Abort)
              && r.trace == [RelayOpen(Heater), RelayClose(Heater)]
    ensures r.Pending? ==> r.ctl.state == Heating && r.trace == [RelayOpen(Heater)]
    ensures r.Raised? ==> r.ctl.state == Heating && r.trace == [] && Heater !in cl.relayMap
    ensures Heater !in cl.relayMap ==> r == Raised(c.(state := Heating), [], Heater)
  {
    var c1 := c.(state := Heating);
    match RelayCmd(cl, Heater, true)
    case Failure(k) => Raised(c1, [], k)
    case Success(on) =>
      var pressures := Readings(obs, OxPressure);
      match First(pressures, HeatStop)
      case None => Pending(c1, [on])
      case Some(n) =>
        var c2 := if HeatWindow(pressures[n]) then c1 else c1.(state := Abort);
        match RelayCmd(cl, Heater, false)
        case Failure(k) => Raised(c2, [on], k)
        case Success(off) =>
          var c3 := if c2.state != Abort then c2.(state := Armed) else c2;
          Returned(c3, [on, off], n + 1)
  }

  // ---------------------------------------------------------------------
  // Ignition
  // ---------------------------------------------------------------------

  /** The commands of a successful ignition: fuel main valve, oxidizer main valve, then the igniter. */
  function IgnitionCommands(cl: Client): seq<Command>
    requires FuelMain in cl.servoOpenPos && OxMain in cl.servoOpenPos
  {
    [SetServo(FuelMain, cl.servoOpenPos[FuelMain]), SetServo(OxMain, cl.servoOpenPos[OxMain]), RelayOpen(Igniter)]
  }

  /** Everything a successful ignition looks up is configured. */
  predicate IgnitionDevicesReady(cl: Client) {
    && FuelMain in cl.servoMap && FuelMain in cl.servoOpenPos
    && OxMain in cl.servoMap && OxMain in cl.servoOpenPos
    && Igniter in cl.relayMap
  }

  /**
   * `ignition_sequence`: nothing in ABORT; otherwise check both intakes are
   * closed (one position read each, the second skipped if the first fails),
   * read the pressure, and only in the 40-65 bar window open the fuel main,
   * the oxidizer main and then the igniter, ending in BOOST.
   */
  function RunIgnitionSequence(c: Controller, cl: Client, obs: seq<Store>): (r: Run)
    ensures c.state == Abort ==> r == Returned(c, [], 0)
    ensures r.ctl == c.(state := r.ctl.state)
    ensures r.Returned? ==> r.used <= |obs|
    ensures r.Returned? && c.state != Abort ==> r.ctl.state == Abort || r.ctl.state == Boost
    ensures r.Returned? && r.ctl.state == Abort ==> r.trace == []
    ensures r.Returned? && r.ctl.state == Boost <==>
              && c.state != Abort && |obs| >= 3
              && ServoIsClosed(cl, obs[0], FuelIntake) == Success(true)
              && ServoIsClosed(cl, obs[1], OxIntake) == Success(true)
              && IgnitionWindow(ReadReal(obs[2], OxPressure))
              && IgnitionDevicesReady(cl)
    ensures r.Returned? && r.ctl.state == Boost ==> r.used == 3 && r.trace == IgnitionCommands(cl)
    ensures !r.Returned? ==> r.ctl.state == IgnitionSequence
    ensures r.Pending? ==> r.trace == []
    ensures c.state != Abort && |obs| >= 1 && ServoIsClosed(cl, obs[0], FuelIntake) == Success(false) ==>
              r == Returned(c.(state := Abort), [], 1)
    ensures c.state != Abort && |obs| >= 2 && ServoIsClosed(cl, obs[0], FuelIntake) == Success(true)
              && ServoIsClosed(cl, obs[1], OxIntake) == Success(false) ==>
              r == Returned(c.(state := Abort), [], 2)
    ensures c.state != Abort && |obs| >= 3 && ServoIsClosed(cl, obs[0], FuelIntake) == Success(true)
              && ServoIsClosed(cl, obs[1], OxIntake) == Success(true)
              && !IgnitionWindow(ReadReal(obs[2], OxPressure)) ==>
              r == Returned(c.(state := Abort), [], 3)
    ensures r.trace != [] ==>
              && |obs| >= 3
              && ServoIsClosed(cl, obs[0], FuelIntake) == Success(true)
              && ServoIsClosed(cl, obs[1], OxIntake) == Success(true)
              && IgnitionWindow(ReadReal(obs[2], OxPressure))
    ensures c.state != Abort && |obs| >= 1 && ServoIsClosed(cl, obs[0], FuelIntake).Failure? ==>
              r == Raised(c.(state := IgnitionSequence), [], FuelIntake)
    ensures c.state != Abort && |obs| >= 2 && ServoIsClosed(cl, obs[0], FuelIntake) == Success(true)
              && ServoIsClosed(cl, obs[1], OxIntake).Failure? ==>
              r == Raised(c.(state := IgnitionSequence), [], OxIntake)
    ensures c.state != Abort && |obs| >= 3 && ServoIsClosed(cl, obs[0], FuelIntake) == Success(true)
              && ServoIsClosed(cl, obs[1], OxIntake) == Success(true)
              && IgnitionWindow(ReadReal(obs[2], OxPressure)) && !IgnitionDevicesReady(cl) ==>
              && r.Raised? && r.ctl.state == IgnitionSequence
              && r.missing in {FuelMain, OxMain, Igniter} && |r.trace| < 3
    ensures r.Returned? && c.state != Abort && r.ctl.state == Abort ==>
              || (|obs| >= 1 && ServoIsClosed(cl, obs[0], FuelIntake) == Success(false))
              || (&& |obs| >= 2 && ServoIsClosed(cl, obs[0], FuelIntake) == Success(true)
                  && ServoIsClosed(cl, obs[1], OxIntake) == Success(false))
              || (&& |obs| >= 3 && ServoIsClosed(cl, obs[0], FuelIntake) == Success(true)
                  && ServoIsClosed(cl, obs[1], OxIntake) == Success(true)
                  && !IgnitionWindow(ReadReal(obs[2], OxPressure)))
  {
    if c.state == Abort then Returned(c, [], 0)
    else
      var c1 := c.(state := IgnitionSequence);
      if |obs| == 0 then Pending(c1, [])
      else
        match ServoIsClosed(cl, obs[0], FuelIntake)
        case Failure(k) => Raised(c1, [], k)
        case Success(fuelClosed) =>
          if !fuelClosed then Returned(c1.(state := Abort), [], 1)
          else if |obs| == 1 then Pending(c1, [])
          else
            match ServoIsClosed(cl, obs[1], OxIntake)
            case Failure(k) => Raised(c1, [], k)
            case Success(oxClosed) =>
              if !oxClosed then Returned(c1.(state := Abort), [], 2)
              else if |obs| == 2 then Pending(c1, [])
              else
                var p := ReadReal(obs[2], OxPressure);
                if p < 40.0 then Returned(c1.(state := Abort), [], 3)
                else if p > 65.0 then Returned(c1.(state := Abort), [], 3)
                else
                  match ServoCmd(cl, FuelMain, cl.servoOpenPos)
                  case Failure(k) => Raised(c1, [], k)
                  case Success(fuel) =>
                    match ServoCmd(cl, OxMain, cl.servoOpenPos)
                    case Failure(k) => Raised(c1, [fuel], k)
                    case Success(ox) =>
                      match RelayCmd(cl, Igniter, true)
                      case Failure(k) => Raised(c1, [fuel, ox], k)
                      case Success(ign) => Returned(c1.(state := Boost), [fuel, ox, ign], 3)
  }

  // ---------------------------------------------------------------------
  // Ascent and apogee
  // ---------------------------------------------------------------------

  /** The arming read: the first read after the start that is more than 1 m above it. */
  function ArmingRead(alts: seq<real>): (a: Option<nat>)
    ensures a.Some? ==> 1 <= a.value < |alts| && Climbing(alts[0], alts[a.value])
    ensures a.Some? ==> forall i :: 1 <= i < a.value ==> !Climbing(alts[0], alts[i])
    ensures a.None? <==> |alts| == 0 || forall i :: 1 <= i < |alts| ==> !Climbing(alts[0], alts[i])
  {
    if |alts| == 0 then None
    else
      var start := alts[0];
      match First(alts[1..], alt => Climbing(start, alt))
      case None =>
        assert forall i :: 1 <= i < |alts| ==> alts[i] == alts[1..][i - 1];
        None
      case Some(k) =>
        assert forall i :: 1 <= i < k + 1 ==> alts[i] == alts[1..][i - 1];
        Some(k + 1)
  }

  /** The tracking loop from `last_alt` at read `last`: the first later read strictly below its predecessor. */
  function TrackDrop(alts: seq<real>, last: nat): (m: Option<nat>)
    ensures m.Some? ==> last < m.value < |alts| && alts[m.value] < alts[m.value - 1]
    ensures m.Some? ==> forall i :: last < i < m.value ==> alts[i - 1] <= alts[i]
    ensures m.None? <==> forall i :: last < i < |alts| ==> alts[i - 1] <= alts[i]
    decreases |alts| - last
  {
    if last + 1 >= |alts| then None
    else if alts[last + 1] < alts[last] then Some(last + 1)
    else TrackDrop(alts, last + 1)
  }

  /**
   * The altitude readings of an ascent that detects apogee at read `m`:
   * read 0 is the start, read `a` the first more than 1 m above it, read
   * `a + 1` the initial `last_alt`, and read `m > a + 1` the first that is
   * strictly below its predecessor.
   */
  ghost predicate ApogeeAt(alts: seq<real>, a: nat, m: nat) {
    && 1 <= a && a + 2 <= m < |alts|
    && Climbing(alts[0], alts[a])
    && (forall i :: 1 <= i < a ==> !Climbing(alts[0], alts[i]))
    && alts[m] < alts[m - 1]
    && (forall i :: a + 2 <= i < m ==> alts[i - 1] <= alts[i])
  }

  /** The read at which the two ascent loops detect apogee, if the readings get that far. */
  function ApogeeRead(alts: seq<real>): (m: Option<nat>)
    ensures m.Some? ==> ArmingRead(alts).Some? && ApogeeAt(alts, ArmingRead(alts).value, m.value)
    ensures m.None? <==>
              || ArmingRead(alts).None?
              || forall i :: ArmingRead(alts).value + 1 < i < |alts| ==> alts[i - 1] <= alts[i]
  {
    match ArmingRead(alts)
    case None => None
    case Some(a) => if a + 1 >= |alts| then None else TrackDrop(alts, a + 1)
  }

  /**
   * `climb_and_detect_apogee`: nothing in ABORT; otherwise confirm a climb
   * of more than 1 m, then track altitude until the first strict decrease,
   * and record the previous reading as the apogee altitude, `now` as the
   * apogee time, and the state APOGEE.
   */
  function ClimbAndDetectApogee(c: Controller, obs: seq<Store>, now: real): (r: Run)
    ensures c.state == Abort ==> r == Returned(c, [], 0)
    ensures r.trace == []
    ensures r.Returned? ==> r.used <= |obs|
    ensures !r.Returned? ==> r.ctl == c.(state := Ascent)
    ensures c.state != Abort ==> (r.Returned? <==> ApogeeRead(Readings(obs, Altitude)).Some?)
    ensures r.Returned? && c.state != Abort ==>
              && ApogeeRead(Readings(obs, Altitude)) == Some(r.used - 1)
              && 4 <= r.used
              && r.ctl == c.(state := Apogee, apogeeAlt := Some(ReadReal(obs[r.used - 2], Altitude)), apogeeTime := Some(now))
  {
    if c.state == Abort then Returned(c, [], 0)
    else
      var c1 := c.(state := Ascent);
      var alts := Readings(obs, Altitude);
      match ApogeeRead(alts)
      case None => Pending(c1, [])
      case Some(m) => Returned(c1.(state := Apogee, apogeeAlt := Some(alts[m - 1]), apogeeTime := Some(now)), [], m + 1)
  }

  /**
   * At a detected apogee the recorded altitude is the highest tracking
   * reading (from `last_alt` on) and above the reading that ended the climb.
   */
  lemma ApogeeIsTrackingPeak(alts: seq<real>)
    requires ApogeeRead(alts).Some?
    ensures var a := ArmingRead(alts).value;
            var m := ApogeeRead(alts).value;
            && (forall i :: a + 1 <= i <= m ==> alts[i] <= alts[m - 1])
            && alts[m] < alts[m - 1]
  {
    ApogeeIsPeak(alts, ArmingRead(alts).value, ApogeeRead(alts).value);
  }

  /** In a detected apogee, the recorded altitude is the tracking peak and exceeds the reading that ended the climb. */
  lemma ApogeeIsPeak(alts: seq<real>, a: nat, m: nat)
    requires ApogeeAt(alts, a, m)
    ensures forall i :: a + 1 <= i <= m ==> alts[i] <= alts[m - 1]
    ensures alts[m] < alts[m - 1]
  {
    ChainMax(alts, a + 1, m - 1);
  }

  /** Along a non-decreasing stretch of readings the last one is the largest. */
  lemma {:induction false} ChainMax(alts: seq<real>, lo: nat, hi: nat)
    requires lo <= hi < |alts|
    requires forall i :: lo + 1 <= i <= hi ==> alts[i - 1] <= alts[i]
    ensures forall i :: lo <= i <= hi ==> alts[i] <= alts[hi]
    decreases hi - lo
  {
    if lo < hi {
      ChainMax(alts, lo + 1, hi);
      assert alts[lo] <= alts[lo + 1];
    }
  }

  // ---------------------------------------------------------------------
  // Descent, parachute and landing
  // ---------------------------------------------------------------------

  /** The wall-clock readings of one deploy poll: around the speed sample (`t1`, `t2`) and after it (`now`). */
  datatype Clock = Clock(t1: real, t2: real, now: real)

  /** The quantities one deploy poll decides on. */
  datatype Poll = Poll(speed: real, alt: real, elapsed: real)

  /** `vertical_speed`: altitude change over the sampling interval, the interval floored at 1e-6 s. */
  function VerticalSpeed(h1: real, h2: real, t1: real, t2: real): (v: real)
    ensures v * Max(t2 - t1, 0.000001) == h2 - h1
    ensures v > 0.0 <==> h2 > h1
    ensures v < 0.0 <==> h2 < h1
  {
    (h2 - h1) / Max(t2 - t1, 0.000001)
  }

  /**
   * Time since apogee at clock reading `now`. Python's `apogee_time or
   * time.time()` substitutes a fresh clock reading for a missing (or zero)
   * apogee time; the two readings are back to back, so the model uses 0.
   */
  function SinceApogee(c: Controller, now: real): (e: real)
    ensures c.apogeeTime == None || c.apogeeTime == Some(0.0) ==> e == 0.0
    ensures c.apogeeTime.Some? && c.apogeeTime.value != 0.0 ==> c.apogeeTime.value + e == now
  {
    match c.apogeeTime
    case Some(t) => if t != 0.0 then now - t else 0.0
    case None => 0.0
  }

  /** Deploy when slow enough and low enough, or unconditionally once more than 9 s have passed since apogee. */
  predicate DeployDue(p: Poll) {
    (p.speed <= 30.0 && p.alt < 200.0) || p.elapsed > 9.0
  }

  /** Deploy poll `k`: altitude reads `3k` and `3k + 1` give the speed, read `3k + 2` the altitude. */
  function PollAt(c: Controller, obs: seq<Store>, clocks: seq<Clock>, k: nat): (p: Poll)
    requires 3 * k + 2 < |obs| && k < |clocks|
    ensures p.speed >= 0.0
    ensures p.speed * Max(clocks[k].t2 - clocks[k].t1, 0.000001)
              == Abs(ReadReal(obs[3 * k + 1], Altitude) - ReadReal(obs[3 * k], Altitude))
    ensures p.alt == ReadReal(obs[3 * k + 2], Altitude)
    ensures p.elapsed == SinceApogee(c, clocks[k].now)
  {
    var h1 := ReadReal(obs[3 * k], Altitude);
    var h2 := ReadReal(obs[3 * k + 1], Altitude);
    Poll(Abs(VerticalSpeed(h1, h2, clocks[k].t1, clocks[k].t2)),
         ReadReal(obs[3 * k + 2], Altitude),
         SinceApogee(c, clocks[k].now))
  }

  /** Every deploy poll the snapshots and clock readings can supply. */
  function Polls(c: Controller, obs: seq<Store>, clocks: seq<Clock>): (ps: seq<Poll>)
    ensures |ps| == if |obs| / 3 <= |clocks| then |obs| / 3 else |clocks|
    ensures 3 * |ps| <= |obs|
    ensures forall k :: 0 <= k < |ps| ==> 3 * k + 2 < |obs| && k < |clocks| && ps[k] == PollAt(c, obs, clocks, k)
  {
    var n := if |obs| / 3 <= |clocks| then |obs| / 3 else |clocks|;
    seq(n, k requires 0 <= k < n => PollAt(c, obs, clocks, k))
  }

  /** Consecutive pairs of readings: `(xs[0], xs[1])`, `(xs[2], xs[3])`, ... */
  function Pairs(xs: seq<real>): (ps: seq<(real, real)>)
    ensures |ps| == |xs| / 2
    ensures forall k :: 0 <= k < |ps| ==> ps[k] == (xs[2 * k], xs[2 * k + 1])
  {
    seq(|xs| / 2, k requires 0 <= k < |xs| / 2 => (xs[2 * k], xs[2 * k + 1]))
  }

  /** Two altitude readings one second apart within 0.5 m: landed. */
  predicate Settled(pair: (real, real)) {
    Abs(pair.1 - pair.0) < 0.5
  }

  /** The altitude pairs of the landing loop, which starts after deploy poll `d`. */
  function LandingPairs(obs: seq<Store>, d: nat): seq<(real, real)>
    requires 3 * (d + 1) <= |obs|
  {
    Pairs(Readings(obs[3 * (d + 1)..], Altitude))
  }

  /**
   * `descent_and_chute`: nothing in ABORT; LANDED at once after a low
   * apogee; otherwise DESCENT, polling until the deploy condition holds,
   * then open the parachute (CHUTE_DEPLOYED), then sample altitude pairs
   * until two agree within 0.5 m (LANDED).
   */
  function DescentAndChute(c: Controller, cl: Client, obs: seq<Store>, clocks: seq<Clock>): (r: Run)
    ensures c.state == Abort ==> r == Returned(c, [], 0)
    ensures c.state != Abort && LowApogee(c) ==> r == Returned(c.(state := Landed, landed := true), [], 0)
    ensures r.Returned? ==> r.used <= |obs|
    ensures r.ctl.apogeeAlt == c.apogeeAlt && r.ctl.apogeeTime == c.apogeeTime
    ensures r.Returned? && c.state != Abort ==> r.ctl.state == Landed && r.ctl.landed
    ensures r.trace == [] || r.trace == [RelayOpen(Parachute)]
    ensures r.Returned? && c.state != Abort && !LowApogee(c) ==> r.trace == [RelayOpen(Parachute)]
    ensures c.state != Abort && !LowApogee(c) && Parachute in cl.relayMap ==>
              forall d: nat, m: nat ::
                IsFirst(Polls(c, obs, clocks), DeployDue, d) && 3 * (d + 1) <= |obs|
                && IsFirst(LandingPairs(obs, d), Settled, m) ==>
                  r == Returned(c.(state := Landed, landed := true), [RelayOpen(Parachute)], 3 * (d + 1) + 2 * (m + 1))
    ensures r.Pending? ==> r.ctl == c.(state := if r.trace == [] then Descent else ChuteDeployed)
    ensures c.state != Abort && !LowApogee(c) && Parachute !in cl.relayMap
            && (exists k :: 0 <= k < |Polls(c, obs, clocks)| && DeployDue(Polls(c, obs, clocks)[k])) ==>
              r == Raised(c.(state := Descent), [], Parachute)
  {
    if c.state == Abort then Returned(c, [], 0)
    else if LowApogee(c) then Returned(c.(state := Landed, landed := true), [], 0)
    else DeployAndLand(c.(state := Descent), cl, obs, Polls(c, obs, clocks))
  }

  /**
   * From DESCENT: wait for the first deploy poll of `ps` whose condition
   * holds, open the parachute (CHUTE_DEPLOYED), then wait for landing.
   */
  function DeployAndLand(c: Controller, cl: Client, obs: seq<Store>, ps: seq<Poll>): (r: Run)
    requires 3 * |ps| <= |obs|
    ensures r.ctl.apogeeAlt == c.apogeeAlt && r.ctl.apogeeTime == c.apogeeTime
    ensures r.Returned? ==> r.used <= |obs| && r.ctl.state == Landed && r.ctl.landed && r.trace == [RelayOpen(Parachute)]
    ensures r.trace == [] || r.trace == [RelayOpen(Parachute)]
    ensures r.trace == [RelayOpen(Parachute)] <==>
              Parachute in cl.relayMap && exists k :: 0 <= k < |ps| && DeployDue(ps[k])
    ensures Parachute in cl.relayMap ==>
              forall d: nat, m: nat ::
                IsFirst(ps, DeployDue, d) && IsFirst(LandingPairs(obs, d), Settled, m) ==>
                  r == Returned(c.(state := Landed, landed := true), [RelayOpen(Parachute)], 3 * (d + 1) + 2 * (m + 1))
    ensures r.Pending? ==> r.ctl == (if r.trace == [] then c else c.(state := ChuteDeployed))
    ensures Parachute !in cl.relayMap && (exists k :: 0 <= k < |ps| && DeployDue(ps[k])) ==> r == Raised(c, [], Parachute)
  {
    FirstFindsIsFirst(ps, DeployDue);
    match First(ps, DeployDue)
    case None => Pending(c, [])
    case Some(d) =>
      match RelayCmd(cl, Parachute, true)
      case Failure(k) => Raised(c, [], k)
      case Success(chute) => AwaitLanding(c.(state := ChuteDeployed), chute, obs, d)
  }

  /**
   * The landing loop after the parachute command `chute` went out at deploy
   * poll `d`: sample altitude pairs until two agree within 0.5 m, then LANDED.
   */
  function AwaitLanding(c: Controller, chute: Command, obs: seq<Store>, d: nat): (r: Run)
    requires 3 * (d + 1) <= |obs|
    ensures r == Pending(c, [chute]) || (r.Returned? && r == Returned(c.(state := Landed, landed := true), [chute], r.used))
    ensures r.Returned? ==> 3 * (d + 1) < r.used <= |obs|
    ensures forall m: nat :: IsFirst(LandingPairs(obs, d), Settled, m) ==>
              r == Returned(c.(state := Landed, landed := true), [chute], 3 * (d + 1) + 2 * (m + 1))
    ensures r.Pending? <==> forall j :: 0 <= j < |LandingPairs(obs, d)| ==> !Settled(LandingPairs(obs, d)[j])
  {
    FirstFindsIsFirst(LandingPairs(obs, d), Settled);
    match First(LandingPairs(obs, d), Settled)
    case None => Pending(c, [chute])
    case Some(m) => Returned(c.(state := Landed, landed := true), [chute], 3 * (d + 1) + 2 * (m + 1))
  }
}

=== FILE: flight_mission.dfy ===
/**
 * `full_auto_mission` and the properties of whole phases: the heating
 * outcome, the parachute decision, and the command script every mission
 * follows.
 */
module FlightMission {
  import opened Common
  import opened Telemetry
  import opened RocketClient
  import opened FlightController

  /** A returned phase followed by the next phase on the remaining snapshots. */
  function Then(first: Run, next: Run): (r: Run)
    requires first.Returned?
    ensures r.ctl == next.ctl && r.trace == first.trace + next.trace
    ensures r.Returned? == next.Returned? && r.Pending? == next.Pending? && r.Raised? == next.Raised?
    ensures r.Returned? ==> r.used == first.used + next.used
  {
    match next
    case Returned(ctl, tr, u) => Returned(ctl, first.trace + tr, first.used + u)
    case Pending(ctl, tr) => Pending(ctl, first.trace + tr)
    case Raised(ctl, tr, k) => Raised(ctl, first.trace + tr, k)
  }

  /** The mission does not go on after this phase: it did not return, or it left the controller in ABORT. */
  predicate Stops(r: Run) {
    !r.Returned? || r.ctl.state == Abort
  }

  /** A returned mission (or mission remainder) ends in ABORT or LANDED, with `landed` set in the latter. */
  predicate Finished(r: Run) {
    r.Returned? ==> (r.ctl.state == Abort || (r.ctl.state == Landed && r.ctl.landed))
  }

  // The mission, stage by stage: each stage runs one phase and, unless it
  // stops, the remaining stages on the remaining snapshots.

  /** `full_auto_mission`: load oxidizer, then the remaining stages. `now` is the clock at apogee; `clocks` feed the deploy polls. */
  function FullAutoMission(c: Controller, cl: Client, obs: seq<Store>, now: real, clocks: seq<Clock>): (r: Run)
    ensures r.Returned? ==> r.used <= |obs|
    ensures Finished(r)
  {
    var r1 := TankOxidizer(c, cl, obs);
    if Stops(r1) then r1 else Then(r1, AfterOxidizer(r1.ctl, cl, obs[r1.used..], now, clocks))
  }

  /** Steps 2 to 6: load fuel, then the remaining stages. */
  function AfterOxidizer(c: Controller, cl: Client, obs: seq<Store>, now: real, clocks: seq<Clock>): (r: Run)
    ensures r.Returned? ==> r.used <= |obs|
    ensures Finished(r)
  {
    var r2 := TankFuel(c, cl, obs);
    if Stops(r2) then r2 else Then(r2, AfterFuel(r2.ctl, cl, obs[r2.used..], now, clocks))
  }

  /** Steps 3 to 6: heat the oxidizer, then the remaining stages unless heating aborted. */
  function AfterFuel(c: Controller, cl: Client, obs: seq<Store>, now: real, clocks: seq<Clock>): (r: Run)
    ensures r.Returned? ==> r.used <= |obs|
    ensures Finished(r)
  {
    var r3 := HeatOxidizer(c, cl, obs);
    if Stops(r3) then r3 else Then(r3, AfterHeating(r3.ctl, cl, obs[r3.used..], now, clocks))
  }

  /** Steps 4 to 6: ignition, then the remaining stages unless ignition aborted. */
  function AfterHeating(c: Controller, cl: Client, obs: seq<Store>, now: real, clocks: seq<Clock>): (r: Run)
    ensures r.Returned? ==> r.used <= |obs|
    ensures Finished(r)
  {
    var r4 := RunIgnitionSequence(c, cl, obs);
    if Stops(r4) then r4 else Then(r4, AfterIgnition(r4.ctl, cl, obs[r4.used..], now, clocks))
  }

  /** Steps 5 and 6: ascent to apogee, then descent and landing. */
  function AfterIgnition(c: Controller, cl: Client, obs: seq<Store>, now: real, clocks: seq<Clock>): (r: Run)
    ensures r.Returned? ==> r.used <= |obs|
    ensures Finished(r)
  {
    var r5 := ClimbAndDetectApogee(c, obs, now);
    if Stops(r5) then r5 else Then(r5, DescentAndChute(r5.ctl, cl, obs[r5.used..], clocks))
  }

  // ---------------------------------------------------------------------
  // The command script
  // ---------------------------------------------------------------------

  /** Every device a mission looks up is configured. */
  predicate FlightDevicesReady(cl: Client) {
    && ServoReady(cl, OxIntake) && ServoReady(cl, FuelIntake)
    && Heater in cl.relayMap && IgnitionDevicesReady(cl) && Parachute in cl.relayMap
  }

  /**
   * The longest command sequence a mission can issue: load oxidizer (0-1),
   * load fuel (2-3), heater on and off (4-5), fuel main, oxidizer main and
   * igniter (6-8), parachute (9).
   */
  function Script(cl: Client): (s: seq<Command>)
    requires FlightDevicesReady(cl)
    ensures |s| == 10
  {
    [ SetServo(OxIntake, cl.servoOpenPos[OxIntake]), SetServo(OxIntake, cl.servoClosedPos[OxIntake]),
      SetServo(FuelIntake, cl.servoOpenPos[FuelIntake]), SetServo(FuelIntake, cl.servoClosedPos[FuelIntake]),
      RelayOpen(Heater), RelayClose(Heater) ]
    + IgnitionCommands(cl) + [RelayOpen(Parachute)]
  }

  /**
   * A mission stage starting at script position `k` issues a prefix of the
   * rest of the script, never raises, and if it returns, it ends either in
   * ABORT having issued nothing past the heater (position 6), or LANDED
   * having issued everything up to the igniter and possibly the parachute.
   */
  predicate FollowsScript(cl: Client, k: nat, r: Run)
    requires FlightDevicesReady(cl) && k <= 10
  {
    var s := Script(cl);
    var abortEnd := if k <= 6 then 6 else k;
    var landEnd := if k <= 9 then 9 else k;
    && r.trace <= s[k..]
    && !r.Raised?
    && (r.Returned? ==>
          || (r.ctl.state == Abort && r.trace == s[k..abortEnd])
          || (r.ctl.state == Landed && (r.trace == s[k..landEnd] || r.trace == s[k..])))
  }

  /** A stage's own commands `s[k..j]` followed by a prefix of `s[j..]` form a prefix of `s[k..]`. */
  lemma PrefixThen(s: seq<Command>, k: nat, j: nat, a: seq<Command>, b: seq<Command>)
    requires k <= j <= |s| && a == s[k..j] && b <= s[j..]
    ensures a + b <= s[k..]
    ensures a + b == s[k..j + |b|]
  {
    assert s[k..] == s[k..j] + s[j..];
  }

  lemma DescentFollowsScript(c: Controller, cl: Client, obs: seq<Store>, clocks: seq<Clock>)
    requires FlightDevicesReady(cl) && c.state != Abort
    ensures FollowsScript(cl, 9, DescentAndChute(c, cl, obs, clocks))
  {
    assert Script(cl)[9..] == [RelayOpen(Parachute)];
  }

  lemma AfterIgnitionFollowsScript(c: Controller, cl: Client, obs: seq<Store>, now: real, clocks: seq<Clock>)
    requires FlightDevicesReady(cl)
    ensures FollowsScript(cl, 9, AfterIgnition(c, cl, obs, now, clocks))
  {
    var r5 := ClimbAndDetectApogee(c, obs, now);
    if !Stops(r5) {
      DescentFollowsScript(r5.ctl, cl, obs[r5.used..], clocks);
      PrefixThen(Script(cl), 9, 9, r5.trace, DescentAndChute(r5.ctl, cl, obs[r5.used..], clocks).trace);
    }
  }

  lemma AfterHeatingFollowsScript(c: Controller, cl: Client, obs: seq<Store>, now: real, clocks: seq<Clock>)
    requires FlightDevicesReady(cl)
    ensures FollowsScript(cl, 6, AfterHeating(c, cl, obs, now, clocks))
  {
    var s := Script(cl);
    var r4 := RunIgnitionSequence(c, cl, obs);
    assert s[6..9] == IgnitionCommands(cl);
    if !Stops(r4) {
      var rest := AfterIgnition(r4.ctl, cl, obs[r4.used..], now, clocks);
      AfterIgnitionFollowsScript(r4.ctl, cl, obs[r4.used..], now, clocks);
      PrefixThen(s, 6, 9, r4.trace, rest.trace);
    }
  }

  /** A returned, non-aborting stage issuing `s[k..j]`, followed by a stage that follows the script from `j <= 6`. */
  lemma ChainFollows(cl: Client, k: nat, j: nat, first: Run, rest: Run)
    requires FlightDevicesReady(cl) && k <= j <= 6
    requires first.Returned? && first.trace == Script(cl)[k..j]
    requires FollowsScript(cl, j, rest)
    ensures FollowsScript(cl, k, Then(first, rest))
  {
    PrefixThen(Script(cl), k, j, first.trace, rest.trace);
  }

  lemma AfterFuelFollowsScript(c: Controller, cl: Client, obs: seq<Store>, now: real, clocks: seq<Clock>)
    requires FlightDevicesReady(cl)
    ensures FollowsScript(cl, 4, AfterFuel(c, cl, obs, now, clocks))
  {
    var s := Script(cl);
    var r3 := HeatOxidizer(c, cl, obs);
    if !Stops(r3) {
      assert r3.trace == s[4..6];
      AfterHeatingFollowsScript(r3.ctl, cl, obs[r3.used..], now, clocks);
      ChainFollows(cl, 4, 6, r3, AfterHeating(r3.ctl, cl, obs[r3.used..], now, clocks));
    } else if r3.Pending? {
      assert r3.trace == s[4..5];
    } else {
      assert r3.trace == s[4..6];
    }
  }

  lemma AfterOxidizerFollowsScript(c: Controller, cl: Client, obs: seq<Store>, now: real, clocks: seq<Clock>)
    requires FlightDevicesReady(cl)
    ensures FollowsScript(cl, 2, AfterOxidizer(c, cl, obs, now, clocks))
  {
    var s := Script(cl);
    var r2 := TankFuel(c, cl, obs);
    if !Stops(r2) {
      assert r2.trace == s[2..4];
      AfterFuelFollowsScript(r2.ctl, cl, obs[r2.used..], now, clocks);
      ChainFollows(cl, 2, 4, r2, AfterFuel(r2.ctl, cl, obs[r2.used..], now, clocks));
    } else {
      assert r2.trace == s[2..3];
    }
  }

  /**
   * Whatever the telemetry: a mission on a fully configured client never
   * raises, issues its commands in script order (so the heater is switched
   * off before ignition and both main valves open before the igniter), and
   * if it returns it has either aborted with the heater switched on and off
   * and nothing after, or landed after the full ignition sequence.
   */
  lemma MissionFollowsScript(c: Controller, cl: Client, obs: seq<Store>, now: real, clocks: seq<Clock>)
    requires FlightDevicesReady(cl)
    ensures FollowsScript(cl, 0, FullAutoMission(c, cl, obs, now, clocks))
  {
    var s := Script(cl);
    var r1 := TankOxidizer(c, cl, obs);
    if !Stops(r1) {
      assert r1.trace == s[0..2];
      AfterOxidizerFollowsScript(r1.ctl, cl, obs[r1.used..], now, clocks);
      ChainFollows(cl, 0, 2, r1, AfterOxidizer(r1.ctl, cl, obs[r1.used..], now, clocks));
    } else if r1.Pending? && |r1.trace| == 1 {
      assert r1.trace == s[0..1];
    } else if r1.Pending? {
      assert r1.trace == s[0..2];
    }
  }

  /** The script's first six commands hold no igniter or parachute command, and the sixth switches the heater off. */
  lemma AbortedRunNeverIgnites(cl: Client, r: Run)
    requires FlightDevicesReady(cl) && FollowsScript(cl, 0, r)
    ensures r.Returned? && r.ctl.state == Abort ==>
              && |r.trace| == 6 && r.trace[5] == RelayClose(Heater)
              && forall i :: 0 <= i < |r.trace| ==> r.trace[i] != RelayOpen(Igniter) && r.trace[i] != RelayOpen(Parachute)
  {
    if r.Returned? && r.ctl.state == Abort {
      var s := Script(cl);
      assert r.trace == s[0..6];
      forall i | 0 <= i < 6 ensures r.trace[i] != RelayOpen(Igniter) && r.trace[i] != RelayOpen(Parachute) {
        assert r.trace[i] == s[i];
      }
    }
  }

  /** An aborted mission has switched the heater off and never fired the igniter nor opened the parachute. */
  lemma AbortedMissionNeverIgnites(c: Controller, cl: Client, obs: seq<Store>, now: real, clocks: seq<Clock>)
    requires FlightDevicesReady(cl)
    ensures var r := FullAutoMission(c, cl, obs, now, clocks);
            r.Returned? && r.ctl.state == Abort ==>
              && |r.trace| == 6 && r.trace[5] == RelayClose(Heater)
              && forall i :: 0 <= i < |r.trace| ==> r.trace[i] != RelayOpen(Igniter) && r.trace[i] != RelayOpen(Parachute)
  {
    MissionFollowsScript(c, cl, obs, now, clocks);
    AbortedRunNeverIgnites(cl, FullAutoMission(c, cl, obs, now, clocks));
  }

  // ---------------------------------------------------------------------
  // Phase outcomes stated over the whole snapshot stream
  // ---------------------------------------------------------------------

  /** The pressure reading of snapshot `i`. */
  function Pressure(obs: seq<Store>, i: nat): real
    requires i < |obs|
  {
    ReadReal(obs[i], OxPressure)
  }

  /**
   * Heating ends ARMED exactly when some pressure reading lies in the
   * 55-65 bar window before any reading reaches 90 bar, and ends in ABORT
   * exactly when a 90 bar reading comes before any in-window one.
   */
  lemma HeatingOutcome(c: Controller, cl: Client, obs: seq<Store>)
    ensures var r := HeatOxidizer(c, cl, obs);
            (r.Returned? && r.ctl.state == Armed) <==>
              && Heater in cl.relayMap
              && exists i :: 0 <= i < |obs| && HeatWindow(Pressure(obs, i))
                               && forall j :: 0 <= j < i ==> !Overpressure(Pressure(obs, j))
    ensures var r := HeatOxidizer(c, cl, obs);
            (r.Returned? && r.ctl.state == Abort) <==>
              && Heater in cl.relayMap
              && exists i :: 0 <= i < |obs| && Overpressure(Pressure(obs, i))
                               && forall j :: 0 <= j < i ==> !HeatWindow(Pressure(obs, j))
  {
    var r := HeatOxidizer(c, cl, obs);
    if r.Returned? {
      var n := r.used - 1;
      forall j | 0 <= j < n ensures !HeatStop(Pressure(obs, j)) {
      }
      forall i | 0 <= i < |obs| && HeatStop(Pressure(obs, i)) ensures n <= i {
      }
      if r.ctl.state == Armed {
        assert HeatWindow(Pressure(obs, n)) && forall j :: 0 <= j < n ==> !Overpressure(Pressure(obs, j));
        assert forall i :: 0 <= i < |obs| && Overpressure(Pressure(obs, i)) ==> n < i;
      } else {
        assert Overpressure(Pressure(obs, n)) && forall j :: 0 <= j < n ==> !HeatWindow(Pressure(obs, j));
        assert forall i :: 0 <= i < |obs| && HeatWindow(Pressure(obs, i)) ==> n < i;
      }
    } else if Heater in cl.relayMap {
      assert forall i :: 0 <= i < |obs| ==> !HeatStop(Pressure(obs, i));
    }
  }

  /**
   * After a recorded apogee of at least 5 m, the parachute is commanded
   * (once) exactly when some deploy poll meets the deploy condition.
   */
  lemma DescentDeploysAtFirstDuePoll(c: Controller, cl: Client, obs: seq<Store>, clocks: seq<Clock>)
    requires c.state != Abort && !LowApogee(c)
    ensures var r := DescentAndChute(c, cl, obs, clocks);
            var ps := Polls(c, obs, clocks);
            r.trace == [RelayOpen(Parachute)] <==>
              Parachute in cl.relayMap && exists k :: 0 <= k < |ps| && DeployDue(ps[k])
  {
  }

  /**
   * After a recorded apogee of at least 5 m, the descent returns (LANDED)
   * exactly when the parachute is configured, some poll is due and a
   * settled altitude pair follows the first due poll; it has then used the
   * reads up to the first settled pair.
   */
  lemma DescentLandsAtFirstSettledPair(c: Controller, cl: Client, obs: seq<Store>, clocks: seq<Clock>)
    requires c.state != Abort && !LowApogee(c)
    ensures var r := DescentAndChute(c, cl, obs, clocks);
            var ps := Polls(c, obs, clocks);
            r.Returned? <==>
              && Parachute in cl.relayMap
              && exists d: nat, m: nat ::
                   && IsFirst(ps, DeployDue, d) && 3 * (d + 1) <= |obs|
                   && IsFirst(LandingPairs(obs, d), Settled, m)
                   && r.used == 3 * (d + 1) + 2 * (m + 1)
  {
    var ps := Polls(c, obs, clocks);
    var r := DescentAndChute(c, cl, obs, clocks);
    match First(ps, DeployDue)
    case None =>
    case Some(d) =>
      if Parachute in cl.relayMap {
        FirstFindsIsFirst(ps, DeployDue);
        match First(LandingPairs(obs, d), Settled)
        case None =>
        case Some(m) =>
          FirstFindsIsFirst(LandingPairs(obs, d), Settled);
          assert r.used == 3 * (d + 1) + 2 * (m + 1);
      }
  }
}

=== FILE: frame.dfy ===
/**
 * The raw frame of the Rust encoder: the header byte, the command fields
 * and the four payload bytes, and the per-byte bit reversal applied before
 * the CRC.
 */
module ProtocolFrame {
  import opened Common

  /** The first byte of every raw frame. */
  const HeaderId: bv8 := 0x05

  /** Exactly four payload bytes. */
  type Payload = p: seq<bv8> | |p| == 4 witness [0, 0, 0, 0]

  /** The fields of one frame, each held in a byte as in the source. */
  datatype FrameFields = FrameFields(
    destination: bv8,   // 5 bits on the wire
    priority: bv8,      // 2 bits
    action: bv8,        // 4 bits
    source: bv8,        // 5 bits
    deviceType: bv8,    // 6 bits
    deviceId: bv8,      // 6 bits
    dataType: bv8,      // 4 bits
    operation: bv8,     // 8 bits
    payload: Payload)

  /** `r` is `b` with every bit from `width` upwards cleared. */
  predicate LowBits(r: bv8, b: bv8, width: nat)
    requires width <= 8
  {
    && (forall i :: 0 <= i < width ==> (Bit(r, i) <==> Bit(b, i)))
    && (forall i :: width <= i < 8 ==> !Bit(r, i))
  }

  /** The masks 0x1F, 0x03 and 0x0F keep the low 5, 2 and 4 bits. */
  lemma MasksKeepLowBits(f: FrameFields)
    ensures LowBits(f.destination & 0x1F, f.destination, 5) && LowBits(f.priority & 0x03, f.priority, 2)
    ensures LowBits(f.action & 0x0F, f.action, 4) && LowBits(f.source & 0x1F, f.source, 5)
  {
    MaskKeepsLowBits(f.destination);
    MaskKeepsLowBits(f.priority);
    MaskKeepsLowBits(f.action);
    MaskKeepsLowBits(f.source);
  }

  lemma MaskKeepsLowBits(b: bv8)
    ensures LowBits(b & 0x1F, b, 5) && LowBits(b & 0x03, b, 2) && LowBits(b & 0x0F, b, 4)
  {
  }

  /**
   * `pack_frame_bits`: the header byte, then the low 5, 2, 4 and 5 bits of
   * destination, priority, action and source in bytes 1-4, a zero byte 5,
   * and the payload in bytes 6-9. Device type, device id, data type and
   * operation are not written (the bit packing is still a placeholder in
   * the source).
   */
  function PackFrameBits(f: FrameFields): (out: seq<bv8>)
    ensures |out| == 10
    ensures out[0] == HeaderId && out[5] == 0
    ensures LowBits(out[1], f.destination, 5) && LowBits(out[2], f.priority, 2)
    ensures LowBits(out[3], f.action, 4) && LowBits(out[4], f.source, 5)
    ensures out[6..] == f.payload
  {
    MasksKeepLowBits(f);
    [ HeaderId,
      f.destination & 0x1F, f.priority & 0x03, f.action & 0x0F, f.source & 0x1F,
      0,
      f.payload[0], f.payload[1], f.payload[2], f.payload[3] ]
  }

  /** The part of a frame the raw bytes carry: the masked first four fields and the payload. */
  function Visible(f: FrameFields): (v: FrameFields)
    ensures LowBits(v.destination, f.destination, 5) && LowBits(v.priority, f.priority, 2)
    ensures LowBits(v.action, f.action, 4) && LowBits(v.source, f.source, 5)
    ensures v.deviceType == 0 && v.deviceId == 0 && v.dataType == 0 && v.operation == 0
    ensures v.payload == f.payload
  {
    MasksKeepLowBits(f);
    FrameFields(f.destination & 0x1F, f.priority & 0x03, f.action & 0x0F, f.source & 0x1F, 0, 0, 0, 0, f.payload)
  }

  /** Reads the visible fields back from ten raw bytes; fails on a wrong length, header or out-of-range byte. */
  function UnpackFrameBits(raw: seq<bv8>): (r: Option<FrameFields>)
    ensures r.Some? <==>
              && |raw| == 10 && raw[0] == HeaderId && raw[5] == 0
              && raw[1] < 32 && raw[2] < 4 && raw[3] < 16 && raw[4] < 32
  {
    if |raw| == 10 && raw[0] == HeaderId && raw[5] == 0 && raw[1] < 32 && raw[2] < 4 && raw[3] < 16 && raw[4] < 32
    then Some(FrameFields(raw[1], raw[2], raw[3], raw[4], 0, 0, 0, 0, raw[6..]))
    else None
  }

  /** Unpacking a packed frame gives back exactly its visible part. */
  lemma UnpackPack(f: FrameFields)
    ensures UnpackFrameBits(PackFrameBits(f)) == Some(Visible(f))
  {
  }

  /** Packing what was unpacked gives back the same ten bytes. */
  lemma PackUnpack(raw: seq<bv8>)
    requires UnpackFrameBits(raw).Some?
    ensures PackFrameBits(UnpackFrameBits(raw).value) == raw
  {
    var out := PackFrameBits(UnpackFrameBits(raw).value);
    assert forall i :: 0 <= i < 10 ==> out[i] == raw[i];
  }

  /** Two frames with the same visible part pack to the same bytes: the other fields do not reach the wire. */
  lemma PackSeesOnlyVisible(f: FrameFields, g: FrameFields)
    requires Visible(f) == Visible(g)
    ensures PackFrameBits(f) == PackFrameBits(g)
  {
    assert f.destination & 0x1F == g.destination & 0x1F;
    assert f.priority & 0x03 == g.priority & 0x03;
    assert f.action & 0x0F == g.action & 0x0F;
    assert f.source & 0x1F == g.source & 0x1F;
  }

  // ---------------------------------------------------------------------
  // Bit reversal
  // ---------------------------------------------------------------------

  /** Bit `i` of `b`, counting from the least significant bit. */
  predicate Bit(b: bv8, i: nat)
    requires i < 8
  {
    b & BitMask(i) != 0
  }

  /** The byte with only bit `i` set. */
  function BitMask(i: nat): (m: bv8)
    requires i < 8
  {
    match i
    case 0 => 0x01 case 1 => 0x02 case 2 => 0x04 case 3 => 0x08
    case 4 => 0x10 case 5 => 0x20 case 6 => 0x40 case _ => 0x80
  }

  /** `reverse_bits_in_byte`: swap nibbles, then bit pairs, then adjacent bits. */
  function ReverseBitsInByte(b: bv8): (r: bv8)
    ensures forall i :: 0 <= i < 8 ==> (Bit(r, i) <==> Bit(b, 7 - i))
  {
    var x0 := b;
    var x1 := (x0 >> 4) | (x0 << 4);
    var x2 := ((x1 & 0xCC) >> 2) | ((x1 & 0x33) << 2);
    var x3 := ((x2 & 0xAA) >> 1) | ((x2 & 0x55) << 1);
    x3
  }

  /** A byte is determined by its eight bits. */
  lemma BitsDetermineByte(a: bv8, b: bv8)
    requires forall i :: 0 <= i < 8 ==> (Bit(a, i) <==> Bit(b, i))
    ensures a == b
  {
    assert Bit(a, 0) == Bit(b, 0) && Bit(a, 1) == Bit(b, 1) && Bit(a, 2) == Bit(b, 2) && Bit(a, 3) == Bit(b, 3);
    assert Bit(a, 4) == Bit(b, 4) && Bit(a, 5) == Bit(b, 5) && Bit(a, 6) == Bit(b, 6) && Bit(a, 7) == Bit(b, 7);
  }

  /** Reversing the bits of a byte twice gives the byte back. */
  lemma ReverseBitsInvolution(b: bv8)
    ensures ReverseBitsInByte(ReverseBitsInByte(b)) == b
  {
    var r := ReverseBitsInByte(b);
    var rr := ReverseBitsInByte(r);
    forall i | 0 <= i < 8 ensures Bit(rr, i) <==> Bit(b, i) {
      assert Bit(rr, i) <==> Bit(r, 7 - i);
    }
    BitsDetermineByte(rr, b);
  }

  /** `reverse_all_bytes`: every byte with its bit order reversed. */
  function ReverseAllBytes(bs: seq<bv8>): (r: seq<bv8>)
    ensures |r| == |bs|
    ensures forall i :: 0 <= i < |bs| ==> r[i] == ReverseBitsInByte(bs[i])
  {
    seq(|bs|, i requires 0 <= i < |bs| => ReverseBitsInByte(bs[i]))
  }

  /** Reversing every byte twice gives the bytes back. */
  lemma ReverseAllBytesInvolution(bs: seq<bv8>)
    ensures ReverseAllBytes(ReverseAllBytes(bs)) == bs
  {
    forall i | 0 <= i < |bs| ensures ReverseAllBytes(ReverseAllBytes(bs))[i] == bs[i] {
      ReverseBitsInvolution(bs[i]);
    }
  }

  /** Reversal works byte by byte, so it commutes with slicing. */
  lemma ReverseAllBytesSlice(bs: seq<bv8>, lo: nat, hi: nat)
    requires lo <= hi <= |bs|
    ensures ReverseAllBytes(bs)[lo..hi] == ReverseAllBytes(bs[lo..hi])
  {
  }
}

=== FILE: rocket_client.dfy ===
/**
 * The ground-station client `RocketClient`: the device maps built from the
 * configuration, the SERVICE frames it sends for servo and relay commands,
 * and the receive loop that routes FEED frames into the telemetry store and
 * everything else into the acknowledgement queue. The transport
 * (`CommunicationManager`) is not part of this model: a sent frame is the
 * function's result, and received frames are an input sequence.
 */
module RocketClient {
  import opened Common
  import opened Telemetry

  // ---------------------------------------------------------------------
  // Frame identifiers (`communication_library.ids`), as enumerations
  // ---------------------------------------------------------------------

  datatype BoardId = Rocket | Software
  datatype PriorityId = Low
  datatype ActionId = Service | Feed
  datatype DeviceKind = Servo | Relay | Sensor
  datatype DataTypeId = Int16 | Float32
  datatype OperationId = Position | Open | Close | Read

  /** A protocol frame as the Python side builds it; `payload` is the tuple of values. */
  datatype Frame = Frame(
    destination: BoardId,
    priority: PriorityId,
    action: ActionId,
    source: BoardId,
    deviceType: DeviceKind,
    deviceId: int,
    dataType: DataTypeId,
    operation: OperationId,
    payload: seq<Value>)

  // ---------------------------------------------------------------------
  // Configuration and the maps derived from it
  // ---------------------------------------------------------------------

  /** One `servo` entry of the device configuration. */
  datatype ServoConfig = ServoConfig(deviceId: int, openPos: int, closedPos: int)

  /** The `devices` section of the configuration: servos, relays and sensors by name. */
  datatype DeviceConfig = DeviceConfig(
    servos: map<string, ServoConfig>,
    relays: map<string, int>,
    sensors: map<string, int>)

  /** The client's lookup tables. */
  datatype Client = Client(
    servoMap: map<string, int>,
    relayMap: map<string, int>,
    sensorMap: map<string, int>,
    servoOpenPos: map<string, int>,
    servoClosedPos: map<string, int>)

  /** The three servo tables cover the same servo names. */
  predicate ServoTablesAgree(cl: Client) {
    cl.servoMap.Keys == cl.servoOpenPos.Keys == cl.servoClosedPos.Keys
  }

  /** The map-building part of `RocketClient.__init__`. */
  function Build(cfg: DeviceConfig): (cl: Client)
    ensures ServoTablesAgree(cl)
    ensures cl.servoMap.Keys == cfg.servos.Keys
    ensures cl.relayMap == cfg.relays && cl.sensorMap == cfg.sensors
    ensures forall n :: n in cfg.servos ==>
              && cl.servoMap[n] == cfg.servos[n].deviceId
              && cl.servoOpenPos[n] == cfg.servos[n].openPos
              && cl.servoClosedPos[n] == cfg.servos[n].closedPos
  {
    Client(
      map n | n in cfg.servos :: cfg.servos[n].deviceId,
      map n | n in cfg.relays :: cfg.relays[n],
      map n | n in cfg.sensors :: cfg.sensors[n],
      map n | n in cfg.servos :: cfg.servos[n].openPos,
      map n | n in cfg.servos :: cfg.servos[n].closedPos)
  }

  /** The two calibration points of one servo, as `get_servo_target_positions` reports them. */
  datatype Targets = Targets(open: int, closed: int)

  /** `get_servo_target_positions`: one entry per servo in `servo_map` (a `KeyError` otherwise, hence the requires). */
  function ServoTargetPositions(cl: Client): (m: map<string, Targets>)
    requires cl.servoMap.Keys <= cl.servoOpenPos.Keys && cl.servoMap.Keys <= cl.servoClosedPos.Keys
    ensures m.Keys == cl.servoMap.Keys
    ensures forall n :: n in m ==> m[n].open == cl.servoOpenPos[n] && m[n].closed == cl.servoClosedPos[n]
  {
    map n | n in cl.servoMap :: Targets(cl.servoOpenPos[n], cl.servoClosedPos[n])
  }

  /** The target positions of a freshly built client are the configuration's calibration points, servo for servo. */
  lemma TargetsComeFromConfig(cfg: DeviceConfig)
    ensures var cl := Build(cfg);
            && cl.servoMap.Keys <= cl.servoOpenPos.Keys && cl.servoMap.Keys <= cl.servoClosedPos.Keys
            && ServoTargetPositions(cl).Keys == cfg.servos.Keys
            && forall n :: n in cfg.servos ==>
                 ServoTargetPositions(cl)[n] == Targets(cfg.servos[n].openPos, cfg.servos[n].closedPos)
  {
  }

  // ---------------------------------------------------------------------
  // Commands and SERVICE frames
  // ---------------------------------------------------------------------

  /** An actuator command by device name, as the flight controller issues it. */
  datatype Command = SetServo(servo: string, position: int) | RelayOpen(relay: string) | RelayClose(relay: string)

  /** The header every SERVICE command carries: ground software to rocket, low priority. */
  predicate ServiceHeader(f: Frame) {
    && f.destination == Rocket && f.priority == Low
    && f.action == Service && f.source == Software
  }

  /** `set_servo_position(name, position)`: a `KeyError` (carrying the name) for an unknown servo, else the frame pushed. */
  function SetServoPosition(cl: Client, name: string, position: int): (r: Result<Frame, string>)
    ensures r.Failure? <==> name !in cl.servoMap
    ensures r.Failure? ==> r.error == name
    ensures r.Success? ==> ServiceHeader(r.value)
    ensures r.Success? ==> r.value.deviceType == Servo && r.value.deviceId == cl.servoMap[name]
    ensures r.Success? ==> r.value.dataType == Int16 && r.value.operation == Position
    ensures r.Success? ==> r.value.payload == [Int(position)]
  {
    if name !in cl.servoMap then Failure(name)
    else Success(Frame(Rocket, Low, Service, Software, Servo, cl.servoMap[name], Int16, Position, [Int(position)]))
  }

  /** The frame of `relay_open` (`open`) or `relay_close` (not `open`); a `KeyError` for an unknown relay. */
  function RelayFrame(cl: Client, name: string, open: bool): (r: Result<Frame, string>)
    ensures r.Failure? <==> name !in cl.relayMap
    ensures r.Failure? ==> r.error == name
    ensures r.Success? ==> ServiceHeader(r.value)
    ensures r.Success? ==> r.value.deviceType == Relay && r.value.deviceId == cl.relayMap[name]
    ensures r.Success? ==> r.value.dataType == Float32 && r.value.payload == []
    ensures r.Success? ==> r.value.operation == (if open then Open else Close)
  {
    if name !in cl.relayMap then Failure(name)
    else Success(Frame(Rocket, Low, Service, Software, Relay, cl.relayMap[name], Float32,
                       if open then Open else Close, []))
  }

  /** The frame the client sends for a command. */
  function Dispatch(cl: Client, cmd: Command): (r: Result<Frame, string>)
    ensures r.Failure? <==> (if cmd.SetServo? then cmd.servo !in cl.servoMap else cmd.relay !in cl.relayMap)
  {
    match cmd
    case SetServo(n, p) => SetServoPosition(cl, n, p)
    case RelayOpen(n) => RelayFrame(cl, n, true)
    case RelayClose(n) => RelayFrame(cl, n, false)
  }

  /** The commands a received SERVICE frame can stand for: every configured device with the frame's identity. */
  function Recover(cl: Client, f: Frame): (cmds: set<Command>)
    ensures forall c :: c in cmds ==> Dispatch(cl, c) == Success(f)
  {
    if !ServiceHeader(f) then {}
    else if f.deviceType == Servo && f.dataType == Int16 && f.operation == Position
            && |f.payload| == 1 && f.payload[0].Int? then
      assert f.payload == [Int(f.payload[0].n)];
      set n | n in cl.servoMap && cl.servoMap[n] == f.deviceId :: SetServo(n, f.payload[0].n)
    else if f.deviceType == Relay && f.dataType == Float32 && f.payload == [] && f.operation == Open then
      set n | n in cl.relayMap && cl.relayMap[n] == f.deviceId :: RelayOpen(n)
    else if f.deviceType == Relay && f.dataType == Float32 && f.payload == [] && f.operation == Close then
      set n | n in cl.relayMap && cl.relayMap[n] == f.deviceId :: RelayClose(n)
    else {}
  }

  /** No two names of one device map share a device id. */
  predicate Injective(m: map<string, int>) {
    forall a, b :: a in m && b in m && a != b ==> m[a] != m[b]
  }

  /** A sent frame identifies its command: exactly, when device ids are distinct per kind. */
  lemma DispatchRoundTrip(cl: Client, cmd: Command)
    requires Dispatch(cl, cmd).Success?
    ensures cmd in Recover(cl, Dispatch(cl, cmd).value)
    ensures Injective(cl.servoMap) && Injective(cl.relayMap) ==> Recover(cl, Dispatch(cl, cmd).value) == {cmd}
  {
    var f := Dispatch(cl, cmd).value;
    if Injective(cl.servoMap) && Injective(cl.relayMap) {
      forall c | c in Recover(cl, f) ensures c == cmd {
        assert Dispatch(cl, c) == Success(f);
      }
    }
  }

  /** `relay_open` and `relay_close` frames for one relay differ in the operation alone, and carry no payload. */
  lemma RelayFramesDifferOnlyInOperation(cl: Client, name: string)
    requires name in cl.relayMap
    ensures var o := RelayFrame(cl, name, true).value;
            var c := RelayFrame(cl, name, false).value;
            && o.operation == Open && c.operation == Close
            && o.(operation := Close) == c
            && o.payload == [] == c.payload
  {
  }

  // ---------------------------------------------------------------------
  // FEED routing and the receive loop
  // ---------------------------------------------------------------------

  /** The FEED pattern registered for a sensor. */
  function SensorPattern(cl: Client, name: string): Frame
    requires name in cl.sensorMap
  {
    Frame(Software, Low, Feed, Rocket, Sensor, cl.sensorMap[name], Float32, Read, [Float(0.0)])
  }

  /** The FEED pattern registered for a servo's position. */
  function ServoPattern(cl: Client, name: string): Frame
    requires name in cl.servoMap
  {
    Frame(Software, Low, Feed, Rocket, Servo, cl.servoMap[name], Int16, Position, [Int(0)])
  }

  /** A received frame matches a registered pattern by device type, device id and operation. */
  predicate Matches(pattern: Frame, f: Frame) {
    pattern.deviceType == f.deviceType && pattern.deviceId == f.deviceId && pattern.operation == f.operation
  }

  /** The telemetry key a servo's position feed is stored under. */
  function PosKey(servo: string): string {
    servo + "_pos"
  }

  /** The telemetry keys whose registered callbacks fire for a received frame. */
  function FeedKeys(cl: Client, f: Frame): (keys: set<string>)
    ensures forall k :: k in keys <==>
              || (k in cl.sensorMap && Matches(SensorPattern(cl, k), f))
              || (exists n :: n in cl.servoMap && k == PosKey(n) && Matches(ServoPattern(cl, n), f))
    ensures keys <= FeedUniverse(cl)
  {
    (set s | s in cl.sensorMap && Matches(SensorPattern(cl, s), f))
    + (set n | n in cl.servoMap && Matches(ServoPattern(cl, n), f) :: PosKey(n))
  }

  /** Every telemetry key the receive loop can write. */
  function FeedUniverse(cl: Client): set<string> {
    cl.sensorMap.Keys + set n | n in cl.servoMap :: PosKey(n)
  }

  /** One result of `cm.receive()`: a receive timeout, or a frame. */
  datatype Inbound = TimedOut | Received(frame: Frame)

  /** The client's receive-side state: telemetry, the acknowledgement queue, and whether the RX thread still runs. */
  datatype Bridge = Bridge(telemetry: Store, acks: seq<Frame>, running: bool)

  /** Write `v` under every key of `keys`. */
  function UpdateAll(t: Store, keys: set<string>, v: Value): (t': Store)
    ensures t'.Keys == t.Keys + keys
    ensures forall k :: k in keys ==> t'[k] == v
    ensures forall k :: k in t && k !in keys ==> t'[k] == t[k]
  {
    map k | k in t.Keys + keys :: if k in keys then v else t[k]
  }

  /**
   * One iteration of `_rx_loop`. A timeout is ignored; a frame no pattern
   * matches goes to the acknowledgement queue; a matched frame has each
   * callback store `payload[0]`, and an empty payload raises `IndexError`,
   * which no `except` clause catches, so the thread ends.
   */
  function RxStep(cl: Client, b: Bridge, m: Inbound): (b': Bridge)
    requires b.running
    ensures b'.running <==> !Crashes(cl, m)
    ensures b'.acks == b.acks + Unmatched(cl, [m])
    ensures b.telemetry.Keys <= b'.telemetry.Keys <= b.telemetry.Keys + FeedUniverse(cl)
    ensures forall k :: k in b.telemetry && k !in FeedUniverse(cl) ==> b'.telemetry[k] == b.telemetry[k]
    ensures m.TimedOut? ==> b' == b
  {
    match m
    case TimedOut => b
    case Received(f) =>
      var keys := FeedKeys(cl, f);
      if keys == {} then b.(acks := b.acks + [f])
      else if |f.payload| == 0 then b.(running := false)
      else b.(telemetry := UpdateAll(b.telemetry, keys, f.payload[0]))
  }

  /** `_rx_loop` over a finite sequence of receive results, stopping if the thread ends. */
  function RxLoop(cl: Client, b: Bridge, ms: seq<Inbound>): (b': Bridge)
    ensures b.acks <= b'.acks && |b'.acks| <= |b.acks| + |ms|
    ensures b.telemetry.Keys <= b'.telemetry.Keys <= b.telemetry.Keys + FeedUniverse(cl)
    ensures b'.running ==> b.running
    ensures !b.running ==> b' == b
    decreases |ms|
  {
    if |ms| == 0 || !b.running then b
    else RxLoop(cl, RxStep(cl, b, ms[0]), ms[1..])
  }

  /** The frames of a receive sequence that match no registered pattern, in arrival order. */
  function Unmatched(cl: Client, ms: seq<Inbound>): (fs: seq<Frame>)
    ensures |fs| <= |ms|
  {
    if |ms| == 0 then []
    else if ms[0].Received? && FeedKeys(cl, ms[0].frame) == {} then [ms[0].frame] + Unmatched(cl, ms[1..])
    else Unmatched(cl, ms[1..])
  }

  /** A matched frame that would crash a callback. */
  predicate Crashes(cl: Client, m: Inbound) {
    m.Received? && FeedKeys(cl, m.frame) != {} && |m.frame.payload| == 0
  }

  /** A sensor FEED updates that sensor's key (and only it, when sensor ids are distinct); no frame is queued. */
  lemma SensorFeedUpdatesSensorKey(cl: Client, b: Bridge, s: string, f: Frame)
    requires b.running && s in cl.sensorMap
    requires f.deviceType == Sensor && f.deviceId == cl.sensorMap[s] && f.operation == Read && |f.payload| > 0
    ensures var b' := RxStep(cl, b, Received(f));
            && b'.running && b'.acks == b.acks
            && s in b'.telemetry && b'.telemetry[s] == f.payload[0]
    ensures Injective(cl.sensorMap) ==>
              forall k :: k != s ==> Get(RxStep(cl, b, Received(f)).telemetry, k, Null) == Get(b.telemetry, k, Null)
  {
    assert s in FeedKeys(cl, f);
    if Injective(cl.sensorMap) {
      assert FeedKeys(cl, f) == {s};
    }
  }

  /** A servo position FEED updates the key `<servo>_pos` (and only it, when servo ids are distinct). */
  lemma ServoFeedUpdatesPosKey(cl: Client, b: Bridge, n: string, f: Frame)
    requires b.running && n in cl.servoMap
    requires f.deviceType == Servo && f.deviceId == cl.servoMap[n] && f.operation == Position && |f.payload| > 0
    ensures var b' := RxStep(cl, b, Received(f));
            && b'.running && b'.acks == b.acks
            && PosKey(n) in b'.telemetry && b'.telemetry[PosKey(n)] == f.payload[0]
    ensures Injective(cl.servoMap) ==>
              forall k :: k != PosKey(n) ==> Get(RxStep(cl, b, Received(f)).telemetry, k, Null) == Get(b.telemetry, k, Null)
  {
    assert PosKey(n) in FeedKeys(cl, f);
    if Injective(cl.servoMap) {
      forall k | k in FeedKeys(cl, f) ensures k == PosKey(n) {
        var m :| m in cl.servoMap && Matches(ServoPattern(cl, m), f) && k == PosKey(m);
      }
    }
  }

  /** A frame matching no pattern is queued for acknowledgement handling and leaves telemetry alone. */
  lemma UnmatchedFrameIsQueued(cl: Client, b: Bridge, f: Frame)
    requires b.running && FeedKeys(cl, f) == {}
    ensures RxStep(cl, b, Received(f)) == b.(acks := b.acks + [f])
  {
  }

  /**
   * Over any run of the receive loop without a crashing frame: the thread
   * keeps running, the queue grows by exactly the unmatched frames in order,
   * and telemetry only ever gains keys from the configured feeds.
   */
  lemma {:induction false} RxLoopInvariant(cl: Client, b: Bridge, ms: seq<Inbound>)
    requires b.running
    requires forall i :: 0 <= i < |ms| ==> !Crashes(cl, ms[i])
    ensures RxLoop(cl, b, ms).running
    ensures RxLoop(cl, b, ms).acks == b.acks + Unmatched(cl, ms)
    ensures b.telemetry.Keys <= RxLoop(cl, b, ms).telemetry.Keys <= b.telemetry.Keys + FeedUniverse(cl)
    ensures forall k :: k in b.telemetry && k !in FeedUniverse(cl) ==>
              RxLoop(cl, b, ms).telemetry[k] == b.telemetry[k]
    decreases |ms|
  {
    if |ms| > 0 {
      var b1 := RxStep(cl, b, ms[0]);
      assert !Crashes(cl, ms[0]);
      RxLoopInvariant(cl, b1, ms[1..]);
      assert forall i :: 0 <= i < |ms[1..]| ==> ms[1..][i] == ms[i + 1];
    }
  }
}

=== FILE: telemetry.dfy ===
/**
 * The latest-value telemetry cache (`TelemetryStore`) and the controller's
 * coercing read `_telem`. The lock of the source only serialises map
 * accesses; as values, every read observes one complete map.
 */
module Telemetry {
  import opened Common

  /**
   * A stored telemetry value. Feed callbacks store `payload[0]`, a float for
   * sensors and an int for servo positions. `Null` is Python's `None`;
   * `Opaque` stands for any other value that `float()` rejects.
   */
  datatype Value = Float(x: real) | Int(n: int) | Null | Opaque

  /** The store's contents: telemetry key to latest value. */
  type Store = map<string, Value>

  /** `update(key, value)`: last write wins. */
  function Update(t: Store, key: string, value: Value): (t': Store)
    ensures t'.Keys == t.Keys + {key}
    ensures forall d :: Get(t', key, d) == value
    ensures forall k, d :: k != key ==> Get(t', k, d) == Get(t, k, d)
  {
    t[key := value]
  }

  /** `get(key, default)`: the stored value, or `default` for a key never written. */
  function Get(t: Store, key: string, default: Value): (v: Value)
    ensures key in t ==> v == t[key]
    ensures key !in t ==> v == default
  {
    if key in t then t[key] else default
  }

  /** `get_all()`: a point-in-time copy of the contents. */
  function GetAll(t: Store): (s: map<string, Value>)
    ensures s.Keys == t.Keys
    ensures forall k :: k in s ==> s[k] == Get(t, k, Null)
  {
    t
  }

  /** `float(val)`: the float a value converts to, or `None` where Python raises `TypeError`/`ValueError`. */
  function Coerce(v: Value): (r: Option<real>)
    ensures r.Some? <==> v.Float? || v.Int?
    ensures v.Float? ==> r == Some(v.x)
    ensures v.Int? ==> r == Some(v.n as real)
  {
    match v
    case Float(x) => Some(x)
    case Int(n) => Some(n as real)
    case Null => None
    case Opaque => None
  }

  /** The Python value passed as `default` to `get`: a float, or `None`. */
  function DefaultValue(default: Option<real>): Value {
    match default
    case Some(x) => Float(x)
    case None => Null
  }

  /**
   * `_telem(key, default)`: fetch `key` with `default` as the fallback,
   * convert with `float()`, and fall back to `default` if that raises.
   */
  function Telem(t: Store, key: string, default: Option<real>): (r: Option<real>)
    ensures key !in t ==> r == default
    ensures key in t && Coerce(t[key]).Some? ==> r == Coerce(t[key])
    ensures key in t && Coerce(t[key]).None? ==> r == default
    ensures default.Some? ==> r.Some?
  {
    var v := Get(t, key, DefaultValue(default));
    match Coerce(v)
    case Some(x) => Some(x)
    case None => default
  }

  /** A reader such as `altitude()`: `_telem(key, 0.0)`, which always yields a float. */
  function ReadReal(t: Store, key: string): (x: real)
    ensures key in t && Coerce(t[key]).Some? ==> x == Coerce(t[key]).value
    ensures (key !in t || Coerce(t[key]).None?) ==> x == 0.0
  {
    Telem(t, key, Some(0.0)).value
  }

  /** The readings of one key across a stream of observed stores, one read per store. */
  function Readings(obs: seq<Store>, key: string): (xs: seq<real>)
    ensures |xs| == |obs|
    ensures forall i :: 0 <= i < |obs| ==> xs[i] == ReadReal(obs[i], key)
  {
    seq(|obs|, i requires 0 <= i < |obs| => ReadReal(obs[i], key))
  }

  /** A snapshot taken by `get_all()` differs from one taken after `update(k, v)` exactly when the update changed the value under `k`. */
  lemma SnapshotIsIndependent(t: Store, k: string, v: Value)
    ensures GetAll(t) != GetAll(Update(t, k, v)) <==> (k !in t || t[k] != v)
  {
    if k in t && t[k] != v {
      assert Update(t, k, v)[k] != t[k];
    }
  }
}
